=== FILE: README.md ===
# bakeup: a Dafny model of the backup driver

`bakeup` is a configuration-driven backup orchestrator. Its core is the `BakeUp`
class, which reads a job list and runs the jobs in order. Each job has three parts:

- its `before` hook commands, each run through the shell;
- one `rsync` invocation, run without a shell;
- its `after` hook commands, each run through the shell.

Every part is bracketed by log records. Each child's output is logged line by line
under a logger named after the program.

This project models that core as pure functions and proves what it does.

- **Rsync** (`rsync.dfy`) covers the argument vector `__execute_rsync` builds, in this order:
  - the fixed flags;
  - `--dry-run` when the job's `dry-run` value is exactly JSON `true`;
  - one `--exclude` pair per exception;
  - `source`, then `dest`.

  The module also models how `__execute_backup` pulls those arguments out of a job. A parser reads a vector back. Two round-trip lemmas show that the vector encodes exactly the dry-run flag, the effective exclude list, the source and the dest. A missing exception list and an empty one give the same vector, because `if exceptions:` treats them alike.
- **Driver** (`driver.dfy`) covers `cook`, `__execute_backup`, `__execute_before` / `__execute_after` and `__execute_rsync` as producers of a trace. A trace is a sequence of log records and process invocations (`trace.dfy`). The model proves:
  - the invocations are exactly the planned ones;
  - job *i* is opened by "Executing backup #i" and closed by "Done executing backup #i" before job *i + 1* opens;
  - only the rsync call bypasses the shell.

  The joint view of a trace keeps its job markers and its invocations interleaved, in order. The model proves that this view is exactly the planned one, so every call of job *i* falls between that job's two records.

  Beyond that, each job and the whole run produce exactly their expected log. This is an event sequence written down from the plan, not from the execution: the job's opening record; "Executing 'before' script", the before-hook invocations and "Done executing 'before' script" when the key is present; "Performing backup", the command line at error level, the rsync invocation under the `rsync` logger and "Backup done"; the after phase; and the closing record. Each hook invocation carries the logger named after its program. Seen through the joint view, this expected log is the plan.
- **Runner** (`runner.dfy`) covers `__exec`. An empty command is skipped. Otherwise the logger is named after `os.path.basename(args[0])`. For a string command, `args[0]` is its first character, so the logger is named after that character; the model keeps this behaviour.
- **Output** (`output.dfy`) covers `__log_ouput`. A text stream, already decoded, splits into lines as Python's iteration does, and each line is logged once after `str.rstrip()`.
- **Logging** (`logging.dfy`) covers `__get_logger` as a registry from logger names to handler counts. A handler is added only when the logger cannot already reach one.
- **Config** (`config.dfy`) holds the parsed job list. A job is a datatype with optional fields. A job missing `source` or `dest` raises `KeyError` when its sync step looks the key up. That happens after its before hooks have run, and it ends the run.

Processes are not run. An invocation is an event that records the command, the shell flag and the logger name. The lines a child prints, logged under that logger, are modelled separately by `Output` and do not appear in the trace.

## Model

| member | source | states |
|---|---|---|
| Config.MissingPath | bakeup/__init__.py:30-32 | The `KeyError` names `source` exactly when `source` is missing, and names `dest` exactly when `source` is present and `dest` is missing. |
| Config.Completed | bakeup/__init__.py:18-22 | Gives the number of leading jobs that have both paths. Every job before that count has both paths, and the job at the count, if there is one, misses a path. |
| Rsync.PrepareCall | bakeup/__init__.py:28-32 | Succeeds exactly when both paths are present, and otherwise fails with the `KeyError` for the first missing path. On success the call carries the job's source and dest and its exceptions value. Its dry-run flag is set exactly when `dry-run` is JSON `true`. |
| Rsync.ExcludeArgs | bakeup/__init__.py:48-50 | Gives two arguments per pattern. Pair j is `--exclude` followed by pattern j, in list order. |
| Rsync.BuildCommand | bakeup/__init__.py:45-51 | The length is 5, plus 1 with dry-run, plus 2 per exception, plus 2. |
| Rsync.CommandLayout | bakeup/__init__.py:45-51 | The vector starts with the five fixed flags, the first being `rsync`. `--dry-run` comes right after them when set, and the parity of the length tells whether it is there. The exclude pairs come next, and the vector ends with `source` then `dest`. |
| Rsync.ParseExcludeArgs | bakeup/__init__.py:48-50 | Reading the exclude pairs back gives the pattern list. |
| Rsync.ExcludeArgsParse | bakeup/__init__.py:48-50 | Any argument run that reads back as a pattern list is exactly the pairs built from that list. |
| Rsync.ParseBuildCommand | bakeup/__init__.py:45-51 | Reading a built vector back gives the call's dry-run flag, its effective exclude list, its source and its dest. |
| Rsync.BuildParsedCommand | bakeup/__init__.py:45-51 | Every vector that reads back is the vector built from its reading. |
| Rsync.BuildCommandInjective | bakeup/__init__.py:45-51 | Two calls that build the same vector agree on dry-run, source, dest and effective excludes. |
| Rsync.JobCommand | bakeup/__init__.py:28-32 | A job's vector reads back as: dry-run exactly when the job's `dry-run` value is JSON `true`; the `exceptions` list, or nothing when it is missing or null; then source and dest. |
| Logging.HasHandlers | bakeup/__init__.py:90 | `hasHandlers()`: the logger, one of its dotted ancestors or the root logger has a handler. |
| Logging.HasHandlersInherited | bakeup/__init__.py:88-96 | A child `parent.suffix` of a logger that reaches a handler reaches one too, so `__get_logger` never adds a handler below one that already has it. |
| Logging.GetLogger | bakeup/__init__.py:88-96 | The logger is created if absent and no other logger changes. A logger that already reaches a handler keeps its handler count. Otherwise it gets exactly one handler. Afterwards it reaches a handler, and no logger carries more than one handler. |
| Logging.GetLoggerIdempotent | bakeup/__init__.py:88-96 | Asking for the same logger again leaves the registry unchanged. |
| Logging.GetLoggersInvariant | bakeup/__init__.py:88-96 | After any sequence of calls: every logger has at most one handler; the loggers are the old ones plus the names asked for; a logger that had a handler keeps it; and every name asked for reaches a handler. |
| Logging.HasHandlersStable | bakeup/__init__.py:88-96 | A logger that reaches a handler still reaches one after any further calls. |
| Output.RStrip | bakeup/__init__.py:78 | The result is a prefix of the line. Everything cut off is whitespace in the sense of `str.isspace`, and the result does not end in whitespace. |
| Output.RStripUnique | bakeup/__init__.py:78 | Those three properties determine the stripped line uniquely. |
| Output.RStripIdempotent | bakeup/__init__.py:78 | Stripping a stripped line changes nothing. |
| Output.Lines | bakeup/__init__.py:77 | Splitting a stream gives non-empty lines that concatenate back to the text. Every line but the last ends with a newline, and no line has a newline anywhere else. |
| Output.LinesCount | bakeup/__init__.py:77 | The number of lines is the number of newlines, plus one when the text ends without a newline. |
| Output.LogOutput | bakeup/__init__.py:76-78 | There is one message per line, in order. Each message is its line with trailing whitespace removed. |
| Output.DrainStream | bakeup/__init__.py:76-78 | A stream with k lines yields exactly k messages, and no message contains a newline. |
| Trace.Decimal | bakeup/__init__.py:25 | `%d` of a natural number gives non-empty decimal digits with no leading zero. |
| Trace.DecimalRoundTrip | bakeup/__init__.py:25 | Reading the digits back gives the number. |
| Trace.BackupTextsDistinct | bakeup/__init__.py:25-35 | Different job indices produce different "Executing backup #i" texts and different "Done executing backup #i" texts. |
| Trace.Text | bakeup/__init__.py:25-85 | The exact text of each record the `bakeup` logger writes: "Loading configuration file...", "Config loaded", "Executing backup #i", "Executing 'before' script", "Done executing 'before' script", "Performing backup", the command line, "Backup done", "Executing 'after' script", "Done executing 'after' script" and "Done executing backup #i". |
| Trace.TextsDistinct | bakeup/__init__.py:25-85 | Two different records other than the command line never have the same text, so the log tells every step apart. |
| Trace.JoinWords | bakeup/__init__.py:52 | `" ".join(command)`: the empty string for no words, and otherwise the words' total length plus one space between each two. |
| Trace.JoinWordsSplit | bakeup/__init__.py:52 | When no word contains a space, splitting the joined line at single spaces gives the words back. A word with a space, such as a path, makes the logged line ambiguous. |
| Trace.BracketsOrder | bakeup/__init__.py:18-22 | The markers of n completed jobs are, for i = 1..n in order, job i's opening at position 2(i - 1) and its closing right after it, so each job closes before the next one opens. |
| Trace.Unmarked | bakeup/__init__.py:37-54 | A trace without job markers is seen in the joint view as exactly its invocations, in order. |
| Trace.ObservedProjections | bakeup/__init__.py:24-35 | The joint view loses nothing: its markers are the trace's markers and its calls are the trace's invocations. |
| Runner.Basename | bakeup/__init__.py:65 | The basename is the suffix of the path after its last `/`. It contains no `/`, and the character just before it is a `/` whenever it is shorter than the path. |
| Runner.BasenameUnique | bakeup/__init__.py:65 | Any `/`-free suffix of a path that is the whole path or starts right after a `/` is its basename, so the three properties of `Basename` determine it. |
| Runner.ProgramName | bakeup/__init__.py:65 | For a string command the logger name is its first character, or the root logger's name when that character is `/`. For an argument list the name is the `/`-free suffix of the first argument that is either all of it or starts right after a `/`, which by `Runner.BasenameUnique` is exactly its basename. |
| Runner.Exec | bakeup/__init__.py:62-67 | An empty command does nothing. Any other command is invoked exactly once, with the given shell flag, under the logger `ProgramName` names. That logger reaches a handler afterwards, and the registry stays well-formed. |
| Driver.ShellCalls | bakeup/__init__.py:39-40 | The planned hook invocations are all through the shell and are non-empty commands from the list. There are never more of them than commands. |
| Driver.RunHooks | bakeup/__init__.py:37-60 | Running the hooks makes exactly the planned shell invocations, in order, and adds no job marker. Its events are exactly those invocations, each under the logger named after its program. |
| Driver.ExecuteScript | bakeup/__init__.py:37-60 | The trace opens with the phase's start record and closes with its done record. Everything between is a shell invocation, and together these are exactly the planned hook calls. The whole trace is the phase's expected log, so each call carries its program's logger. |
| Driver.OptionalScript | bakeup/__init__.py:26-34 | A missing or null hook list produces no events and leaves the registry unchanged. A present one, even an empty one, logs the phase's start record, its planned shell invocations under their programs' loggers and its done record. |
| Driver.ExecuteRsync | bakeup/__init__.py:43-54 | The trace is four events: "Performing backup", the space-joined vector at error level, one invocation of the vector without a shell under the `rsync` logger, and "Backup done". |
| Driver.SingleSync | bakeup/__init__.py:26-59 | Among a job's planned invocations exactly one bypasses the shell. It is the rsync call, placed right after the before hooks. |
| Driver.ExecuteBackup | bakeup/__init__.py:24-35 | A job with both paths is opened and closed as job `index` and makes exactly its planned calls: before hooks, rsync, after hooks. A job missing a path fails with its `KeyError` and stays open. It has made only its before-hook calls. In both cases the trace is exactly the job's expected log: every step record, every call with its logger, and the markers around them. The joint view is the job's plan. |
| Driver.FinishBackup | bakeup/__init__.py:30-35 | After the paths are found, the trace is exactly the sync step's four events, then the after phase's expected log, then the job's closing record. In the joint view these are the rsync call, the after-hook calls and the closing. |
| Driver.Cook | bakeup/__init__.py:18-22 | The trace is exactly the run's expected log: each job's expected log in list order, numbered from 1, up to and including the first job that misses a path. That job's log stops after its before phase. The joint view is the planned trace, and the invocations alone are the planned run. The run fails exactly when some job misses a path. On success the markers bracket jobs 1..N in order. On failure the markers bracket the completed jobs and then open the failing job, and the error is that job's `KeyError`. An empty job list does nothing and leaves the registry unchanged. |
| Driver.TracePrefixGrows | bakeup/__init__.py:18-22 | The planned trace of the first n completed jobs is a prefix of that of the first m, for n <= m: later jobs only append. |
| Driver.JobSegment | bakeup/__init__.py:18-35 | Each completed job k + 1 adds one contiguous segment right after the plans of jobs 1 to k: "Executing backup #k+1", exactly its planned calls, "Done executing backup #k+1". The planned trace of the whole run starts with these k + 1 plans. |
| Driver.JobLogSegment | bakeup/__init__.py:18-35 | In the run's expected log, each completed job k + 1 is one contiguous segment right after the logs of jobs 1 to k. The segment is its opening record, its before phase, the sync step, its after phase and its closing record. The expected log of the whole run starts with these k + 1 segments. |
| Driver.EventPrefixGrows | bakeup/__init__.py:18-22 | The expected log of the first n completed jobs is a prefix of that of the first m, for n <= m. |
| Driver.JobEventsObserved | bakeup/__init__.py:24-35 | A job's expected log, seen in the joint view, is the job's plan. The step records and loggers are all that the log adds to the plan. |
| Driver.PlannedEventsObserved | bakeup/__init__.py:18-22 | A run's expected log, seen in the joint view, is its planned trace. |
| Driver.NextJob | bakeup/__init__.py:20-22 | One iteration of the loop, run after jobs 1 to i - 1 have completed. If job i has both paths, it completes too: its expected log is appended to the trace, and its plan to the joint view. Otherwise the run stops at job i with that job's `KeyError`, after its opening and its before phase. |
| Driver.Session | bakeup/__init__.py:11-85 | The trace starts with "Loading configuration file...". A document without `backups` fails with `KeyError` at once, and nothing else happens. Otherwise the trace is "Config loaded" followed by exactly the run's expected log, and all of `Cook`'s statements about markers, calls and the error hold of it. |

## Left out

- Process execution: `subprocess.Popen`, the two output-draining threads and their joins are left out. An invocation is an event. Exit status is never inspected by the code, so nothing depends on it.
- Launch failures: `subprocess.Popen` can itself raise at bakeup/__init__.py:67, for example `FileNotFoundError` when `rsync` cannot be found. Hooks run through the shell, which reports a missing program itself. The exception leaves `__exec` and ends the run. By then "Performing backup" and the command line have been logged, but "Backup done", the closing records and all later jobs never happen. `Runner.Exec` always makes its invocation and the run continues, so the model covers only runs in which every launch succeeds.
- Output interleaving: the stdout lines (info level) and stderr lines (warning level) of a child are logged by two threads. Their interleaving is not modelled. `Output.LogOutput` gives the messages of one stream.
- Newline translation: `universal_newlines=True` turns `\r\n` and `\r` into `\n` before lines are split. The model splits on `\n` only.
- Configuration loading: reading and parsing the JSON file is left out, and so are its I/O and parse errors. The model starts from the parsed document. A missing `backups` key is the only load error kept.
- Value types: a job whose `source`, `dest`, `exceptions` or hook values have the wrong JSON type is not modelled. The same goes for a `backups` entry that is not an object, and for a JSON number with a fraction.
- Document shapes: `ConfigDoc` holds either no `backups` key or a list of jobs. A `backups` value that is `null` or not a list is not modelled. With `"backups": null`, "Config loaded" is logged and `cook` then raises `TypeError` when it iterates at bakeup/__init__.py:20. A top-level document that is not an object is not modelled either: the lookup at bakeup/__init__.py:84 raises `TypeError` before "Config loaded".
- Text decoding: `universal_newlines=True` at bakeup/__init__.py:67 also decodes the child's bytes, with the locale's encoding and strict errors. The model starts from decoded text. A byte that does not decode raises `UnicodeDecodeError` inside the draining thread at bakeup/__init__.py:77. That thread ends and the rest of its stream is never logged. The child can then block on the pipe nobody drains, and the joins at bakeup/__init__.py:72-73 never return. `Output.Lines`, `Output.LogOutput` and `Output.DrainStream` hold only for output that decodes.
- Path semantics: `Runner.Basename` follows POSIX `os.path` (`posixpath.basename`) and splits only at `/`. On Windows, `ntpath.basename` also splits at `\` and after a drive's `:`, which is not modelled.
- Logging output: handler formatting, levels on the handler side and writes to stdout are left out. The registry keeps only the handler count per logger name.
- Logging.HasHandlers: considers the logger, every prefix ending just before a `.`, and the root logger. CPython walks a logger's real parents. These agree except for names with consecutive dots, whose placeholder handling is not modelled. Python 3.9's mapping of the name `"root"` to the root logger is not modelled either.
- Driver.Session: does not state that every logger used during the run reaches a handler. `Runner.Exec` states it for each invocation at the moment it is made.
- CLI and packaging: `bakeup/command_line.py` and `setup.py` are not part of this model.
- Features later revisions describe but this code lacks are not modelled: includes, filters, bandwidth limit, checksum, backup-dir, date substitution, environment overlays and before-all/after-all hooks.
- Configuration errors: a missing `source` or `dest` is not caught when the configuration is loaded. The code raises `KeyError` in the middle of the run, after all earlier jobs and after the failing job's before hooks. The model keeps that timing.

=== FILE: config.dfy ===
/**
 * The parsed configuration document and the job entries it holds.
 *
 * A job is a JSON object; the model keeps one field per key the backup driver
 * reads. For `before`, `after` and `exceptions` the driver treats a missing key
 * and an explicit `null` alike, so `None` stands for both. For `source` and
 * `dest`, `None` means the key is missing, which raises `KeyError` when the
 * job reaches its sync step.
 */
module Config {
  import opened Wrappers

  /** A JSON value, as `json.load` produces it. */
  datatype Json =
    | Null
    | Bool(b: bool)
    | Number(n: int)
    | Str(s: string)
    | Array(items: seq<Json>)
    | Object(fields: map<string, Json>)

  /**
   * A hook command: either a raw string handed to the shell as is, or an
   * argument list.
   */
  datatype Command = Line(text: string) | Argv(args: seq<string>)

  datatype Job = Job(
    source: Option<string>,
    dest: Option<string>,
    before: Option<seq<Command>>,
    after: Option<seq<Command>>,
    dryRun: Option<Json>,
    exceptions: Option<seq<string>>)

  /** The parsed configuration file; `backups` is `None` when the key is missing. */
  datatype ConfigDoc = ConfigDoc(backups: Option<seq<Job>>)

  /** The exceptions the driver can raise that the model keeps. */
  datatype Failure = KeyError(key: string)

  /** True when the job has both keys its sync step looks up. */
  predicate HasPaths(job: Job) {
    job.source.Some? && job.dest.Some?
  }

  /** The key whose lookup fails first when the sync step reads `source`, then `dest`. */
  function MissingPath(job: Job): (f: Failure)
    requires !HasPaths(job)
    ensures f.key == "source" <==> job.source.None?
    ensures f.key == "dest" <==> job.source.Some? && job.dest.None?
  {
    if job.source.None? then KeyError("source") else KeyError("dest")
  }

  /**
   * The job's dry-run flag: only the JSON literal `true` switches it on; a
   * missing key, `null`, `1` or `"true"` leave it off.
   */
  predicate DryRun(job: Job) {
    job.dryRun == Some(Bool(true))
  }

  /** The hook list of a phase, empty when the key is missing or null. */
  function Hooks(script: Option<seq<Command>>): seq<Command> {
    script.GetOr([])
  }

  /**
   * The number of leading jobs that have both paths: the jobs a run
   * completes before one of them raises `KeyError`.
   */
  function Completed(jobs: seq<Job>): (k: nat)
    ensures k <= |jobs|
    ensures forall j :: 0 <= j < k ==> HasPaths(jobs[j])
    ensures k < |jobs| ==> !HasPaths(jobs[k])
  {
    if |jobs| == 0 || !HasPaths(jobs[0]) then 0 else 1 + Completed(jobs[1..])
  }
}

=== FILE: driver.dfy ===
/**
 * The backup driver: `cook` runs the jobs in list order, numbering them
 * from 1; each job runs its `before` hooks, one rsync invocation and its
 * `after` hooks, each part bracketed by log records.
 */
module Driver {
  import opened Wrappers
  import opened Config
  import opened Logging
  import opened Trace
  import opened Rsync
  import opened Runner

  /** The invocations a list of hook commands is expected to make: the non-empty ones, through the shell. */
  function ShellCalls(cmds: seq<Command>): (calls: seq<Call>)
    ensures |calls| <= |cmds|
    ensures forall c :: c in calls ==> c.shell && !IsEmpty(c.cmd) && c.cmd in cmds
  {
    if |cmds| == 0 then []
    else (if IsEmpty(cmds[0]) then [] else [Call(cmds[0], true)]) + ShellCalls(cmds[1..])
  }

  /**
   * The invocation events of planned calls, in order: one per call with a
   * non-empty command, reported to the logger named after its program.
   */
  function Invoked(calls: seq<Call>): (events: seq<Event>)
    ensures |events| <= |calls|
  {
    if |calls| == 0 then []
    else
      var c := calls[0];
      (if IsEmpty(c.cmd) then [] else [Invoke(c.cmd, c.shell, ProgramName(c.cmd))]) + Invoked(calls[1..])
  }

  lemma {:induction false} InvokedAppend(a: seq<Call>, b: seq<Call>)
    ensures Invoked(a + b) == Invoked(a) + Invoked(b)
  {
    if |a| > 0 {
      assert (a + b)[0] == a[0] && (a + b)[1..] == a[1..] + b;
      InvokedAppend(a[1..], b);
    } else {
      assert a + b == b;
    }
  }

  /** Every event is an invocation through the shell. */
  predicate AllShell(events: seq<Event>) {
    forall e :: e in events ==> e.Invoke? && e.shell
  }

  /** The hook commands one after the other, each through the shell. */
  function RunHooks(cmds: seq<Command>, reg: Registry): (s: Step)
    ensures Invocations(s.events) == ShellCalls(cmds)
    ensures s.events == Invoked(ShellCalls(cmds))
    ensures Markers(s.events) == []
    ensures AllShell(s.events)
    ensures WellFormed(reg) ==> WellFormed(s.reg)
  {
    if |cmds| == 0 then Step([], reg)
    else
      var first := Exec(cmds[0], true, reg);
      var rest := RunHooks(cmds[1..], first.reg);
      InvocationsAppend(first.events, rest.events);
      MarkersAppend(first.events, rest.events);
      HookStep(cmds, first.events, rest.events);
      Step(first.events + rest.events, rest.reg)
  }

  /** The first hook command's invocation, if any, followed by the rest's. */
  lemma HookStep(cmds: seq<Command>, first: seq<Event>, rest: seq<Event>)
    requires |cmds| > 0
    requires IsEmpty(cmds[0]) ==> first == []
    requires !IsEmpty(cmds[0]) ==> |first| == 1 && first[0].Invoke? && first[0].logger == ProgramName(cmds[0])
    requires Invocations(first) == if IsEmpty(cmds[0]) then [] else [Call(cmds[0], true)]
    requires rest == Invoked(ShellCalls(cmds[1..]))
    ensures first + rest == Invoked(ShellCalls(cmds))
  {
    var head := if IsEmpty(cmds[0]) then [] else [Call(cmds[0], true)];
    var tail := ShellCalls(cmds[1..]);
    assert ShellCalls(cmds) == head + tail;
    assert first == Invoked(head) by {
      if !IsEmpty(cmds[0]) {
        SingleInvocation(first, cmds[0], true);
        assert head[1..] == [];
      }
    }
    InvokedAppend(head, tail);
  }

  /** A one-event trace that invokes `cmd` under its program's logger is that invocation. */
  lemma SingleInvocation(first: seq<Event>, cmd: Command, shell: bool)
    requires !IsEmpty(cmd)
    requires |first| == 1 && first[0].Invoke? && first[0].logger == ProgramName(cmd)
    requires Invocations(first) == [Call(cmd, shell)]
    ensures first == [Invoke(cmd, shell, ProgramName(cmd))]
  {
    assert first[1..] == [];
    assert Invocations(first) == [Call(first[0].cmd, first[0].shell)];
  }

  /** `__execute_before` / `__execute_after`: the hooks between two log records. */
  function ExecuteScript(phase: Phase, cmds: seq<Command>, reg: Registry): (s: Step)
    ensures |s.events| >= 2
    ensures s.events[0] == Log(Info, ScriptStart(phase))
    ensures s.events[|s.events| - 1] == Log(Info, ScriptEnd(phase))
    ensures forall k :: 0 < k < |s.events| - 1 ==> s.events[k].Invoke? && s.events[k].shell
    ensures Invocations(s.events) == ShellCalls(cmds)
    ensures s.events == ScriptEvents(phase, Some(cmds))
    ensures Markers(s.events) == []
    ensures WellFormed(reg) ==> WellFormed(s.reg)
  {
    var hooks := RunHooks(cmds, reg);
    var events := [Log(Info, ScriptStart(phase))] + hooks.events + [Log(Info, ScriptEnd(phase))];
    ScriptFrame(phase, hooks.events);
    assert events == ScriptEvents(phase, Some(cmds)) by {
      assert hooks.events == Invoked(ShellCalls(cmds));
    }
    Step(events, hooks.reg)
  }

  /** Hook invocations between the two records of a phase. */
  lemma ScriptFrame(phase: Phase, hooks: seq<Event>)
    requires AllShell(hooks)
    ensures var events := [Log(Info, ScriptStart(phase))] + hooks + [Log(Info, ScriptEnd(phase))];
            && |events| == |hooks| + 2
            && events[0] == Log(Info, ScriptStart(phase))
            && events[|events| - 1] == Log(Info, ScriptEnd(phase))
            && (forall k :: 0 < k < |events| - 1 ==> events[k].Invoke? && events[k].shell)
            && Invocations(events) == Invocations(hooks)
            && Markers(events) == Markers(hooks)
  {
    var open := [Log(Info, ScriptStart(phase))];
    var close := [Log(Info, ScriptEnd(phase))];
    var events := open + hooks + close;
    InvocationsAppend(open, hooks);
    InvocationsAppend(open + hooks, close);
    MarkersAppend(open, hooks);
    MarkersAppend(open + hooks, close);
    forall k | 0 < k < |events| - 1
      ensures events[k].Invoke? && events[k].shell
    {
      assert events[k] == hooks[k - 1];
      assert hooks[k - 1] in hooks;
    }
  }

  /**
   * What a hook phase is expected to log: nothing when its key is missing or
   * null; otherwise its opening record, the invocation of each non-empty
   * command through the shell, and its closing record.
   */
  function ScriptEvents(phase: Phase, script: Option<seq<Command>>): seq<Event> {
    match script
    case None => []
    case Some(cmds) => [Log(Info, ScriptStart(phase))] + Invoked(ShellCalls(cmds)) + [Log(Info, ScriptEnd(phase))]
  }

  /** A hook phase when its key is present and not null; nothing otherwise. */
  function OptionalScript(phase: Phase, script: Option<seq<Command>>, reg: Registry): (s: Step)
    ensures script.None? ==> s.events == [] && s.reg == reg
    ensures s.events == ScriptEvents(phase, script)
    ensures Invocations(s.events) == ShellCalls(Hooks(script))
    ensures Markers(s.events) == []
    ensures WellFormed(reg) ==> WellFormed(s.reg)
  {
    match script
    case None => Step([], reg)
    case Some(cmds) => ExecuteScript(phase, cmds, reg)
  }

  /**
   * What the sync step is expected to log: "Performing backup", the command
   * line at error level, the rsync invocation without a shell under the
   * `rsync` logger, and "Backup done".
   */
  function SyncEvents(call: RsyncCall): seq<Event> {
    var argv := BuildCommand(call);
    [Log(Info, PerformingBackup), Log(Error, CommandText(JoinWords(argv))), Invoke(Argv(argv), false, "rsync"), Log(Info, BackupDone)]
  }

  /**
   * `__execute_rsync`: logs the command line at error level and invokes
   * rsync once, without a shell, between two info records.
   */
  function ExecuteRsync(call: RsyncCall, reg: Registry): (s: Step)
    ensures |s.events| == 4
    ensures s.events[0] == Log(Info, PerformingBackup)
    ensures s.events[1] == Log(Error, CommandText(JoinWords(BuildCommand(call))))
    ensures s.events[3] == Log(Info, BackupDone)
    ensures Invocations(s.events) == [Call(Argv(BuildCommand(call)), false)]
    ensures s.events[2].Invoke? && s.events[2].logger == "rsync"
    ensures s.events == SyncEvents(call)
    ensures Markers(s.events) == []
    ensures WellFormed(reg) ==> WellFormed(s.reg)
  {
    var argv := BuildCommand(call);
    assert !IsEmpty(Argv(argv));
    CommandLayout(call);
    RsyncLoggerName(argv);
    var run := Exec(Argv(argv), false, reg);
    RsyncFrame(JoinWords(argv), Argv(argv), run.events);
    Step([Log(Info, PerformingBackup), Log(Error, CommandText(JoinWords(argv)))] + run.events + [Log(Info, BackupDone)], run.reg)
  }

  /** The rsync invocation between the records announcing it and its end. */
  lemma RsyncFrame(text: string, cmd: Command, run: seq<Event>)
    requires |run| == 1 && run[0].Invoke? && run[0].logger == "rsync"
    requires Invocations(run) == [Call(cmd, false)] && Markers(run) == []
    ensures var events := [Log(Info, PerformingBackup), Log(Error, CommandText(text))] + run + [Log(Info, BackupDone)];
            && events == [Log(Info, PerformingBackup), Log(Error, CommandText(text)), Invoke(cmd, false, "rsync"), Log(Info, BackupDone)]
            && Invocations(events) == [Call(cmd, false)]
            && Markers(events) == []
  {
    assert run == [Invoke(cmd, false, "rsync")] by {
      assert run[1..] == [];
      assert Invocations(run) == [Call(run[0].cmd, run[0].shell)];
    }
    var head := [Log(Info, PerformingBackup), Log(Error, CommandText(text))];
    var tail := [Log(Info, BackupDone)];
    InvocationsAppend(head, run);
    InvocationsAppend(head + run, tail);
    MarkersAppend(head, run);
    MarkersAppend(head + run, tail);
  }

  /** Output of an rsync vector goes to the `rsync` logger. */
  lemma RsyncLoggerName(argv: seq<string>)
    requires |argv| > 0 && argv[0] == "rsync"
    ensures ProgramName(Argv(argv)) == "rsync"
  {
    assert '/' !in "rsync";
  }

  /** A job's trace, the registry after it, and the exception that ended it, if any. */
  datatype Run = Run(events: seq<Event>, reg: Registry, failure: Option<Failure>)

  /** The invocations a job with both paths makes: before hooks, rsync, after hooks. */
  function PlannedCalls(job: Job): seq<Call>
    requires HasPaths(job)
  {
    var call := PrepareCall(job).value;
    ShellCalls(Hooks(job.before)) + ([Call(Argv(BuildCommand(call)), false)] + ShellCalls(Hooks(job.after)))
  }

  /**
   * What job `index` is expected to show: its opening record, then its
   * planned invocations and its closing record when it has both paths, or
   * only its before-hook invocations when it misses one.
   */
  function JobPlan(job: Job, index: nat): seq<Obs> {
    if HasPaths(job) then [Mark(BackupStart(index))] + Performed(PlannedCalls(job)) + [Mark(BackupEnd(index))]
    else [Mark(BackupStart(index))] + Performed(ShellCalls(Hooks(job.before)))
  }

  /**
   * Everything job `index` is expected to log, in order: its opening record
   * and its before phase; then, when it has both paths, the sync step, its
   * after phase and its closing record.
   */
  function JobEvents(job: Job, index: nat): seq<Event> {
    [Log(Info, BackupStart(index))] + ScriptEvents(Before, job.before)
    + (if HasPaths(job) then SyncEvents(PrepareCall(job).value) + ScriptEvents(After, job.after) + [Log(Info, BackupEnd(index))]
       else [])
  }

  /** A job's expected log as its opening, its before phase and, with both paths, the rest of the job. */
  lemma JobEventsParts(job: Job, index: nat)
    ensures !HasPaths(job) ==> JobEvents(job, index) == [Log(Info, BackupStart(index))] + ScriptEvents(Before, job.before)
    ensures HasPaths(job) ==>
              JobEvents(job, index) ==
                [Log(Info, BackupStart(index))] + ScriptEvents(Before, job.before)
                + (SyncEvents(PrepareCall(job).value) + (ScriptEvents(After, job.after) + [Log(Info, BackupEnd(index))]))
  {
  }

  /** Exactly one planned invocation bypasses the shell: the rsync one, right after the before hooks. */
  lemma SingleSync(job: Job)
    requires HasPaths(job)
    ensures var calls := PlannedCalls(job);
            forall k :: 0 <= k < |calls| ==>
              (!calls[k].shell <==> k == |ShellCalls(Hooks(job.before))|)
  {
    var before := ShellCalls(Hooks(job.before));
    var after := ShellCalls(Hooks(job.after));
    var calls := PlannedCalls(job);
    forall k | 0 <= k < |calls|
      ensures !calls[k].shell <==> k == |before|
    {
      if k < |before| {
        assert calls[k] == before[k] && calls[k] in before;
      } else if k > |before| {
        assert calls[k] == after[k - |before| - 1] && calls[k] in after;
      }
    }
  }

  /**
   * `__execute_backup(backup, index)`. A job missing `source` or `dest`
   * raises `KeyError` after its before hooks, with the job left open.
   */
  method ExecuteBackup(job: Job, index: nat, reg: Registry) returns (r: Run)
    ensures |r.events| > 0 && r.events[0] == Log(Info, BackupStart(index))
    ensures r.failure.None? <==> HasPaths(job)
    ensures r.failure.Some? ==> r.failure.value == MissingPath(job)
    ensures HasPaths(job) ==>
              && r.events[|r.events| - 1] == Log(Info, BackupEnd(index))
              && Markers(r.events) == [BackupStart(index), BackupEnd(index)]
              && Invocations(r.events) == PlannedCalls(job)
    ensures !HasPaths(job) ==>
              && Markers(r.events) == [BackupStart(index)]
              && Invocations(r.events) == ShellCalls(Hooks(job.before))
    ensures Observed(r.events) == JobPlan(job, index)
    ensures r.events == JobEvents(job, index)
    ensures WellFormed(reg) ==> WellFormed(r.reg)
  {
    var open := [Log(Info, BackupStart(index))];
    var before := OptionalScript(Before, job.before, reg);
    Opened(index, before.events);
    var prepared := PrepareCall(job);
    if prepared.Failure? {
      StoppedJob(job, index, before.events);
      JobEventsParts(job, index);
      r := Run(open + before.events, before.reg, Some(prepared.error));
    } else {
      var rest := FinishBackup(prepared.value, job.after, index, before.reg);
      Bracketed(index, before.events, rest.events);
      InvocationsAppend(open + before.events, rest.events);
      Framed(index, before.events, rest.events, ShellCalls(Hooks(job.before)),
             [Call(Argv(BuildCommand(prepared.value)), false)] + ShellCalls(Hooks(job.after)));
      JobEventsParts(job, index);
      r := Run(open + before.events + rest.events, rest.reg, None);
    }
  }

  /** A job missing a path shows its opening and its before-hook invocations. */
  lemma StoppedJob(job: Job, index: nat, before: seq<Event>)
    requires !HasPaths(job)
    requires Markers(before) == [] && Invocations(before) == ShellCalls(Hooks(job.before))
    ensures Observed([Log(Info, BackupStart(index))] + before) == JobPlan(job, index)
  {
    Opened(index, before);
    Unmarked(before);
  }

  /** Job `index` opened, marker-free invocations, then a part that makes more invocations and closes it. */
  lemma Framed(index: nat, before: seq<Event>, rest: seq<Event>, hooks: seq<Call>, sync: seq<Call>)
    requires Markers(before) == [] && Invocations(before) == hooks
    requires Observed(rest) == Performed(sync) + [Mark(BackupEnd(index))]
    ensures Observed([Log(Info, BackupStart(index))] + before + rest) ==
              [Mark(BackupStart(index))] + Performed(hooks + sync) + [Mark(BackupEnd(index))]
  {
    var open := [Log(Info, BackupStart(index))];
    var start, end := [Mark(BackupStart(index))], [Mark(BackupEnd(index))];
    var ph, ps := Performed(hooks), Performed(sync);
    assert Observed(open + before) == start + ph by {
      Opened(index, before);
      Unmarked(before);
    }
    assert Observed(open + before + rest) == (start + ph) + (ps + end) by {
      ObservedAppend(open + before, rest);
    }
    assert Performed(hooks + sync) == ph + ps by {
      PerformedAppend(hooks, sync);
    }
    assert (start + ph) + (ps + end) == start + (ph + ps) + end;
  }

  /** A trace that opens job `index`, runs marker-free hooks and then a part closing the job. */
  lemma Bracketed(index: nat, a: seq<Event>, b: seq<Event>)
    requires Markers(a) == [] && Markers(b) == [BackupEnd(index)]
    ensures Markers([Log(Info, BackupStart(index))] + a + b) == [BackupStart(index), BackupEnd(index)]
  {
    Opened(index, a);
    MarkersAppend([Log(Info, BackupStart(index))] + a, b);
  }

  /**
   * The part of `__execute_backup` after the paths were found: the rsync
   * step, the after hooks if any, and the closing record.
   */
  method FinishBackup(call: RsyncCall, after: Option<seq<Command>>, index: nat, reg: Registry) returns (s: Step)
    ensures |s.events| > 0 && s.events[|s.events| - 1] == Log(Info, BackupEnd(index))
    ensures Markers(s.events) == [BackupEnd(index)]
    ensures Invocations(s.events) == [Call(Argv(BuildCommand(call)), false)] + ShellCalls(Hooks(after))
    ensures Observed(s.events) == Performed([Call(Argv(BuildCommand(call)), false)] + ShellCalls(Hooks(after))) + [Mark(BackupEnd(index))]
    ensures s.events == SyncEvents(call) + (ScriptEvents(After, after) + [Log(Info, BackupEnd(index))])
    ensures WellFormed(reg) ==> WellFormed(s.reg)
  {
    var sync := ExecuteRsync(call, reg);
    var hooks := OptionalScript(After, after, sync.reg);
    Finished(index, sync.events, hooks.events, [Call(Argv(BuildCommand(call)), false)], ShellCalls(Hooks(after)));
    s := Step(sync.events + hooks.events + [Log(Info, BackupEnd(index))], hooks.reg);
  }

  /** Two marker-free parts followed by the closing record of job `index`. */
  lemma Finished(index: nat, a: seq<Event>, b: seq<Event>, ca: seq<Call>, cb: seq<Call>)
    requires Markers(a) == [] && Markers(b) == [] && Invocations(a) == ca && Invocations(b) == cb
    ensures var events := a + b + [Log(Info, BackupEnd(index))];
            && |events| > 0 && events[|events| - 1] == Log(Info, BackupEnd(index))
            && Markers(events) == [BackupEnd(index)]
            && Invocations(events) == ca + cb
            && Observed(events) == Performed(ca + cb) + [Mark(BackupEnd(index))]
            && events == a + (b + [Log(Info, BackupEnd(index))])
  {
    var close := [Log(Info, BackupEnd(index))];
    LogMarker(Info, BackupEnd(index));
    LogInvokesNothing(Info, BackupEnd(index));
    JoinTraces(a, b, close);
    Closing(index, a + b, ca + cb);
  }

  /** Marker-free invocations followed by the closing record of job `index`. */
  lemma Closing(index: nat, events: seq<Event>, calls: seq<Call>)
    requires Markers(events) == [] && Invocations(events) == calls
    ensures Observed(events + [Log(Info, BackupEnd(index))]) == Performed(calls) + [Mark(BackupEnd(index))]
  {
    LogObserved(Info, BackupEnd(index));
    Unmarked(events);
    ObservedAppend(events, [Log(Info, BackupEnd(index))]);
  }

  /** A trace that opens job `index`, then continues with `a`. */
  lemma Opened(index: nat, a: seq<Event>)
    ensures Markers([Log(Info, BackupStart(index))] + a) == [BackupStart(index)] + Markers(a)
    ensures Invocations([Log(Info, BackupStart(index))] + a) == Invocations(a)
    ensures Observed([Log(Info, BackupStart(index))] + a) == [Mark(BackupStart(index))] + Observed(a)
  {
    LogObserved(Info, BackupStart(index));
    ObservedAppend([Log(Info, BackupStart(index))], a);
    LogMarker(Info, BackupStart(index));
    LogInvokesNothing(Info, BackupStart(index));
    MarkersAppend([Log(Info, BackupStart(index))], a);
    InvocationsAppend([Log(Info, BackupStart(index))], a);
  }

  /** The markers and invocations of a concatenation of traces. */
  lemma JoinTraces(a: seq<Event>, b: seq<Event>, c: seq<Event>)
    ensures Markers(a + b) == Markers(a) + Markers(b)
    ensures Invocations(a + b) == Invocations(a) + Invocations(b)
    ensures Markers(a + b + c) == Markers(a) + Markers(b) + Markers(c)
    ensures Invocations(a + b + c) == Invocations(a) + Invocations(b) + Invocations(c)
  {
    MarkersAppend(a, b);
    MarkersAppend(a + b, c);
    InvocationsAppend(a, b);
    InvocationsAppend(a + b, c);
  }

  /**
   * The invocations a whole run is expected to make: each job's planned
   * invocations in list order, up to the first job missing a path, which
   * runs only its before hooks and ends the run.
   */
  function PlannedRun(jobs: seq<Job>): seq<Call> {
    if |jobs| == 0 then []
    else if !HasPaths(jobs[0]) then ShellCalls(Hooks(jobs[0].before))
    else PlannedCalls(jobs[0]) + PlannedRun(jobs[1..])
  }

  /** The planned invocations of the first n jobs, all of which have both paths. */
  function PlannedPrefix(jobs: seq<Job>, n: nat): seq<Call>
    requires n <= Completed(jobs)
  {
    if n == 0 then [] else PlannedPrefix(jobs, n - 1) + PlannedCalls(jobs[n - 1])
  }

  /** The plan of a run is the plan of its first n completed jobs followed by the plan of the rest. */
  lemma {:induction false} PlannedRunSplit(jobs: seq<Job>, n: nat)
    requires n <= Completed(jobs)
    ensures PlannedRun(jobs) == PlannedPrefix(jobs, n) + PlannedRun(jobs[n..])
  {
    if n == 0 {
      assert jobs[0..] == jobs;
    } else {
      PlannedRunSplit(jobs, n - 1);
      PlannedRunUnfold(jobs, n);
      Regroup(PlannedPrefix(jobs, n - 1), PlannedCalls(jobs[n - 1]), PlannedRun(jobs[n..]),
              PlannedPrefix(jobs, n), PlannedRun(jobs[n - 1..]), PlannedRun(jobs));
    }
  }

  lemma Regroup<T>(a: seq<T>, b: seq<T>, c: seq<T>, ab: seq<T>, bc: seq<T>, whole: seq<T>)
    requires ab == a + b && bc == b + c && a + bc == whole
    ensures ab + c == whole
  {
  }

  /** The plan from a job with both paths is that job's calls followed by the plan of the rest. */
  lemma PlannedRunUnfold(jobs: seq<Job>, i: nat)
    requires 1 <= i <= |jobs| && HasPaths(jobs[i - 1])
    ensures PlannedRun(jobs[i - 1..]) == PlannedCalls(jobs[i - 1]) + PlannedRun(jobs[i..])
  {
    assert jobs[i - 1..][1..] == jobs[i..];
  }

  /** The plans of all jobs, in list order, job i + 1 at position i. */
  function JobPlans(jobs: seq<Job>): (plans: seq<seq<Obs>>)
    ensures |plans| == |jobs|
  {
    seq(|jobs|, i requires 0 <= i < |jobs| => JobPlan(jobs[i], i + 1))
  }

  /** The parts one after the other. */
  function Flatten<T>(parts: seq<seq<T>>): seq<T> {
    if |parts| == 0 then [] else Flatten(parts[..|parts| - 1]) + parts[|parts| - 1]
  }

  /** The plans of the first n jobs, numbered 1 to n, all of which have both paths. */
  function TracePrefix(jobs: seq<Job>, n: nat): seq<Obs>
    requires n <= Completed(jobs)
  {
    Flatten(JobPlans(jobs)[..n])
  }

  /** The plans of n jobs are those of the first n - 1 followed by job n's. */
  lemma TracePrefixStep(jobs: seq<Job>, n: nat)
    requires 0 < n <= Completed(jobs)
    ensures TracePrefix(jobs, n) == TracePrefix(jobs, n - 1) + JobPlan(jobs[n - 1], n)
  {
    FlattenStep(JobPlans(jobs), n);
  }

  /**
   * What a run is expected to show: the plans of the jobs that have both
   * paths up to the first one that does not, numbered from 1, then the plan
   * of that job, if there is one.
   */
  function PlannedTrace(jobs: seq<Job>): seq<Obs> {
    var k := Completed(jobs);
    TracePrefix(jobs, k) + (if k < |jobs| then JobPlan(jobs[k], k + 1) else [])
  }

  /** The plans of fewer completed jobs are a prefix of the plans of more. */
  lemma TracePrefixGrows(jobs: seq<Job>, n: nat, m: nat)
    requires n <= m <= Completed(jobs)
    ensures |TracePrefix(jobs, n)| <= |TracePrefix(jobs, m)|
    ensures TracePrefix(jobs, m)[..|TracePrefix(jobs, n)|] == TracePrefix(jobs, n)
  {
    var plans := JobPlans(jobs)[..m];
    assert plans[..n] == JobPlans(jobs)[..n];
    FlattenPrefix(plans, n);
  }

  /** The concatenation of the first k parts is a prefix of the concatenation of all of them. */
  lemma {:induction false} FlattenPrefix<T>(parts: seq<seq<T>>, k: nat)
    requires k <= |parts|
    ensures |Flatten(parts[..k])| <= |Flatten(parts)|
    ensures Flatten(parts)[..|Flatten(parts[..k])|] == Flatten(parts[..k])
    decreases |parts|
  {
    if k == |parts| {
      assert parts[..k] == parts;
    } else {
      var init := parts[..|parts| - 1];
      assert init[..k] == parts[..k];
      FlattenPrefix(init, k);
      PrefixExtends(Flatten(parts[..k]), Flatten(init), parts[|parts| - 1]);
    }
  }

  lemma PrefixExtends<T>(a: seq<T>, b: seq<T>, c: seq<T>)
    requires |a| <= |b| && b[..|a|] == a
    ensures |a| <= |b + c| && (b + c)[..|a|] == a
  {
    assert (b + c)[..|a|] == b[..|a|];
  }

  /** What each job is expected to log, in list order, job i + 1 at position i. */
  function JobLogs(jobs: seq<Job>): (logs: seq<seq<Event>>)
    ensures |logs| == |jobs|
  {
    seq(|jobs|, i requires 0 <= i < |jobs| => JobEvents(jobs[i], i + 1))
  }

  /** What the first n jobs, numbered 1 to n and all with both paths, are expected to log. */
  function EventPrefix(jobs: seq<Job>, n: nat): seq<Event>
    requires n <= Completed(jobs)
  {
    Flatten(JobLogs(jobs)[..n])
  }

  /** The log of n jobs is that of the first n - 1 followed by job n's. */
  lemma EventPrefixStep(jobs: seq<Job>, n: nat)
    requires 0 < n <= Completed(jobs)
    ensures EventPrefix(jobs, n) == EventPrefix(jobs, n - 1) + JobEvents(jobs[n - 1], n)
  {
    FlattenStep(JobLogs(jobs), n);
  }

  /** The first n parts joined are the first n - 1 joined, then part n. */
  lemma FlattenStep<T>(parts: seq<seq<T>>, n: nat)
    requires 0 < n <= |parts|
    ensures Flatten(parts[..n]) == Flatten(parts[..n - 1]) + parts[n - 1]
  {
    assert parts[..n][..n - 1] == parts[..n - 1];
  }

  /**
   * Everything a run is expected to log after loading its configuration:
   * the logs of the jobs with both paths up to the first one that does not,
   * numbered from 1, then the log of that job, if there is one.
   */
  function PlannedEvents(jobs: seq<Job>): seq<Event> {
    var k := Completed(jobs);
    EventPrefix(jobs, k) + (if k < |jobs| then JobEvents(jobs[k], k + 1) else [])
  }

  /** The invocation events of planned calls show exactly those calls. */
  lemma {:induction false} InvokedObserved(calls: seq<Call>)
    requires forall c :: c in calls ==> !IsEmpty(c.cmd)
    ensures Observed(Invoked(calls)) == Performed(calls)
  {
    if |calls| > 0 {
      var c := calls[0];
      var head := [Invoke(c.cmd, c.shell, ProgramName(c.cmd))];
      assert !IsEmpty(c.cmd);
      assert Invoked(calls) == head + Invoked(calls[1..]);
      ObservedAppend(head, Invoked(calls[1..]));
      assert head[1..] == [];
      assert Observed(head) == [Made(c)];
      InvokedObserved(calls[1..]);
    }
  }

  /** A hook phase's expected log shows exactly its planned shell calls. */
  lemma ScriptObserved(phase: Phase, script: Option<seq<Command>>)
    ensures Observed(ScriptEvents(phase, script)) == Performed(ShellCalls(Hooks(script)))
  {
    if script.Some? {
      var hooks := Invoked(ShellCalls(script.value));
      InvokedObserved(ShellCalls(script.value));
      LogObserved(Info, ScriptStart(phase));
      LogObserved(Info, ScriptEnd(phase));
      ObservedAppend([Log(Info, ScriptStart(phase))], hooks);
      ObservedAppend([Log(Info, ScriptStart(phase))] + hooks, [Log(Info, ScriptEnd(phase))]);
    }
  }

  /** The sync step's expected log shows exactly its rsync call. */
  lemma SyncObserved(call: RsyncCall)
    ensures Observed(SyncEvents(call)) == Performed([Call(Argv(BuildCommand(call)), false)])
  {
    var argv := BuildCommand(call);
    SyncShape(JoinWords(argv), Argv(argv));
  }

  lemma SyncShape(text: string, cmd: Command)
    ensures Observed([Log(Info, PerformingBackup), Log(Error, CommandText(text)), Invoke(cmd, false, "rsync"), Log(Info, BackupDone)])
              == Performed([Call(cmd, false)])
  {
    var e := [Log(Info, PerformingBackup), Log(Error, CommandText(text)), Invoke(cmd, false, "rsync"), Log(Info, BackupDone)];
    assert e[1..][1..][1..][1..] == [];
    assert Observed(e[1..][1..][1..]) == [];
    assert Observed(e[1..][1..]) == [Made(Call(cmd, false))];
    assert Observed(e) == Observed(e[1..]) == Observed(e[1..][1..]);
    assert [Call(cmd, false)][1..] == [];
  }

  /**
   * A job's expected log, seen as markers and invocations, is its plan: the
   * records of its steps and the loggers of its calls are all that the log
   * adds.
   */
  lemma JobEventsObserved(job: Job, index: nat)
    ensures Observed(JobEvents(job, index)) == JobPlan(job, index)
  {
    var before := ScriptEvents(Before, job.before);
    JobEventsParts(job, index);
    ScriptObserved(Before, job.before);
    if HasPaths(job) {
      var call := PrepareCall(job).value;
      SyncObserved(call);
      ScriptObserved(After, job.after);
      JobShape(index, before, SyncEvents(call), ScriptEvents(After, job.after),
               ShellCalls(Hooks(job.before)), [Call(Argv(BuildCommand(call)), false)], ShellCalls(Hooks(job.after)));
    } else {
      Opened(index, before);
    }
  }

  /** A job opened, three parts that show only calls, and the job closed. */
  lemma JobShape(index: nat, before: seq<Event>, sync: seq<Event>, after: seq<Event>, hb: seq<Call>, hs: seq<Call>, ha: seq<Call>)
    requires Observed(before) == Performed(hb) && Observed(sync) == Performed(hs) && Observed(after) == Performed(ha)
    ensures Observed([Log(Info, BackupStart(index))] + before + (sync + (after + [Log(Info, BackupEnd(index))])))
              == [Mark(BackupStart(index))] + Performed(hb + (hs + ha)) + [Mark(BackupEnd(index))]
  {
    var open := [Log(Info, BackupStart(index))];
    var close := [Log(Info, BackupEnd(index))];
    var start, end := [Mark(BackupStart(index))], [Mark(BackupEnd(index))];
    assert Observed(open + before) == start + Performed(hb) by {
      Opened(index, before);
    }
    assert Observed(sync + (after + close)) == Performed(hs) + (Performed(ha) + end) by {
      LogObserved(Info, BackupEnd(index));
      ObservedAppend(after, close);
      ObservedAppend(sync, after + close);
    }
    assert Performed(hb + (hs + ha)) == Performed(hb) + (Performed(hs) + Performed(ha)) by {
      PerformedAppend(hs, ha);
      PerformedAppend(hb, hs + ha);
    }
    ObservedAppend(open + before, sync + (after + close));
    Regroup5(start, Performed(hb), Performed(hs), Performed(ha), end);
  }

  lemma Regroup5<T>(a: seq<T>, b: seq<T>, c: seq<T>, d: seq<T>, e: seq<T>)
    ensures (a + b) + (c + (d + e)) == a + (b + (c + d)) + e
  {
  }

  /**
   * A run's expected log, seen as markers and invocations, is its planned
   * trace.
   */
  lemma PlannedEventsObserved(jobs: seq<Job>)
    ensures Observed(PlannedEvents(jobs)) == PlannedTrace(jobs)
  {
    var k := Completed(jobs);
    var rest := if k < |jobs| then JobEvents(jobs[k], k + 1) else [];
    assert Observed(EventPrefix(jobs, k)) == TracePrefix(jobs, k) by {
      PrefixObserved(jobs, k);
    }
    assert Observed(rest) == if k < |jobs| then JobPlan(jobs[k], k + 1) else [] by {
      if k < |jobs| {
        JobEventsObserved(jobs[k], k + 1);
      }
    }
    ObservedAppend(EventPrefix(jobs, k), rest);
  }

  lemma {:induction false} PrefixObserved(jobs: seq<Job>, n: nat)
    requires n <= Completed(jobs)
    ensures Observed(EventPrefix(jobs, n)) == TracePrefix(jobs, n)
  {
    if n > 0 {
      PrefixObserved(jobs, n - 1);
      EventPrefixStep(jobs, n);
      TracePrefixStep(jobs, n);
      ObservedAppend(EventPrefix(jobs, n - 1), JobEvents(jobs[n - 1], n));
      JobEventsObserved(jobs[n - 1], n);
    } else {
      assert JobLogs(jobs)[..0] == [] && JobPlans(jobs)[..0] == [];
    }
  }

  /**
   * In a run's expected log every completed job k + 1 is one contiguous
   * segment right after the logs of jobs 1 to k: its opening record, its
   * before phase, the sync step, its after phase and its closing record.
   */
  lemma JobLogSegment(jobs: seq<Job>, k: nat)
    requires k < Completed(jobs)
    ensures EventPrefix(jobs, k + 1) ==
              EventPrefix(jobs, k)
              + ([Log(Info, BackupStart(k + 1))] + ScriptEvents(Before, jobs[k].before)
                 + (SyncEvents(PrepareCall(jobs[k]).value) + (ScriptEvents(After, jobs[k].after) + [Log(Info, BackupEnd(k + 1))])))
    ensures |EventPrefix(jobs, k + 1)| <= |PlannedEvents(jobs)|
    ensures PlannedEvents(jobs)[..|EventPrefix(jobs, k + 1)|] == EventPrefix(jobs, k + 1)
  {
    var done := Completed(jobs);
    assert EventPrefix(jobs, k + 1) == EventPrefix(jobs, k) + JobEvents(jobs[k], k + 1) by {
      EventPrefixStep(jobs, k + 1);
    }
    JobEventsParts(jobs[k], k + 1);
    var a, b := EventPrefix(jobs, k + 1), EventPrefix(jobs, done);
    assert |a| <= |b| && b[..|a|] == a by {
      EventPrefixGrows(jobs, k + 1, done);
    }
    PrefixExtends(a, b, if done < |jobs| then JobEvents(jobs[done], done + 1) else []);
  }

  /** The log of fewer completed jobs is a prefix of the log of more. */
  lemma EventPrefixGrows(jobs: seq<Job>, n: nat, m: nat)
    requires n <= m <= Completed(jobs)
    ensures |EventPrefix(jobs, n)| <= |EventPrefix(jobs, m)|
    ensures EventPrefix(jobs, m)[..|EventPrefix(jobs, n)|] == EventPrefix(jobs, n)
  {
    var logs := JobLogs(jobs)[..m];
    assert logs[..n] == JobLogs(jobs)[..n];
    FlattenPrefix(logs, n);
  }

  /**
   * In a run's plan every completed job k + 1 is one contiguous segment,
   * right after the plans of jobs 1 to k: its opening, exactly its planned
   * invocations, its closing. The plan starts with those k + 1 plans.
   */
  lemma JobSegment(jobs: seq<Job>, k: nat)
    requires k < Completed(jobs)
    ensures TracePrefix(jobs, k + 1) ==
              TracePrefix(jobs, k) + ([Mark(BackupStart(k + 1))] + Performed(PlannedCalls(jobs[k])) + [Mark(BackupEnd(k + 1))])
    ensures |TracePrefix(jobs, k + 1)| <= |PlannedTrace(jobs)|
    ensures PlannedTrace(jobs)[..|TracePrefix(jobs, k + 1)|] == TracePrefix(jobs, k + 1)
  {
    var done := Completed(jobs);
    TracePrefixStep(jobs, k + 1);
    TracePrefixGrows(jobs, k + 1, done);
    var a, b := TracePrefix(jobs, k + 1), TracePrefix(jobs, done);
    PrefixExtends(a, b, if done < |jobs| then JobPlan(jobs[done], done + 1) else []);
  }

  /**
   * The trace of a run that has finished jobs 1 to i - 1: those jobs all
   * have both paths, each is bracketed, and each made its planned calls.
   */
  predicate Partial(jobs: seq<Job>, i: nat, events: seq<Event>) {
    && 1 <= i <= |jobs| + 1
    && i - 1 <= Completed(jobs)
    && Markers(events) == Brackets(i - 1)
    && Invocations(events) == PlannedPrefix(jobs, i - 1)
    && Observed(events) == TracePrefix(jobs, i - 1)
    && events == EventPrefix(jobs, i - 1)
  }

  /**
   * The trace of a run that a job missing a path ended: the jobs before it
   * completed, it was opened and ran its before hooks, and the error is its
   * `KeyError`.
   */
  predicate Stopped(jobs: seq<Job>, events: seq<Event>, failure: Failure) {
    var k := Completed(jobs);
    && k < |jobs|
    && failure == MissingPath(jobs[k])
    && Markers(events) == Brackets(k) + [BackupStart(k + 1)]
    && Invocations(events) == PlannedPrefix(jobs, k) + ShellCalls(Hooks(jobs[k].before))
    && Observed(events) == TracePrefix(jobs, k) + JobPlan(jobs[k], k + 1)
    && events == EventPrefix(jobs, k) + JobEvents(jobs[k], k + 1)
  }

  /** Once every job has finished, the run made exactly the planned invocations. */
  lemma FinishedRun(jobs: seq<Job>, events: seq<Event>)
    requires Partial(jobs, |jobs| + 1, events)
    ensures Completed(jobs) == |jobs|
    ensures Invocations(events) == PlannedRun(jobs)
    ensures Observed(events) == PlannedTrace(jobs)
    ensures events == PlannedEvents(jobs)
  {
    assert jobs[|jobs|..] == [];
    PlannedRunSplit(jobs, |jobs|);
  }

  /** A stopped run made exactly the planned invocations. */
  lemma StoppedRun(jobs: seq<Job>, events: seq<Event>, failure: Failure)
    requires Stopped(jobs, events, failure)
    ensures Invocations(events) == PlannedRun(jobs)
    ensures Observed(events) == PlannedTrace(jobs)
    ensures events == PlannedEvents(jobs)
  {
    StoppedCalls(jobs, Invocations(events));
  }

  /** The plan of the completed jobs, then the before hooks of the failing one, is the whole planned run. */
  lemma StoppedCalls(jobs: seq<Job>, calls: seq<Call>)
    requires Completed(jobs) < |jobs|
    requires calls == PlannedPrefix(jobs, Completed(jobs)) + ShellCalls(Hooks(jobs[Completed(jobs)].before))
    ensures calls == PlannedRun(jobs)
  {
    var k := Completed(jobs);
    var rest := jobs[k..];
    assert |rest| > 0 && rest[0] == jobs[k];
    PlannedRunSplit(jobs, k);
  }

  /** Job i completes: the run so far gains its bracket and its planned invocations. */
  lemma CompletedStep(jobs: seq<Job>, i: nat, events: seq<Event>, last: seq<Event>)
    requires i <= |jobs| && Partial(jobs, i, events)
    requires HasPaths(jobs[i - 1])
    requires Markers(last) == [BackupStart(i), BackupEnd(i)]
    requires Invocations(last) == PlannedCalls(jobs[i - 1])
    requires Observed(last) == JobPlan(jobs[i - 1], i)
    requires last == JobEvents(jobs[i - 1], i)
    ensures Partial(jobs, i + 1, events + last)
  {
    CompletedPast(jobs, i - 1);
    TracePrefixStep(jobs, i);
    EventPrefixStep(jobs, i);
    MarkersAppend(events, last);
    InvocationsAppend(events, last);
    ObservedAppend(events, last);
  }

  /** A job with both paths right after the completed ones is completed too. */
  lemma CompletedPast(jobs: seq<Job>, k: nat)
    requires k < |jobs| && k <= Completed(jobs) && HasPaths(jobs[k])
    ensures k < Completed(jobs)
  {
  }

  /** The first job missing a path is the one after the completed ones. */
  lemma CompletedAt(jobs: seq<Job>, k: nat)
    requires k < |jobs| && k <= Completed(jobs) && !HasPaths(jobs[k])
    ensures Completed(jobs) == k
  {
  }

  /** Job i misses a path: the run so far gains its opening record and its before hooks, and stops. */
  lemma FailedStep(jobs: seq<Job>, i: nat, events: seq<Event>, last: seq<Event>)
    requires i <= |jobs| && Partial(jobs, i, events)
    requires !HasPaths(jobs[i - 1])
    requires Markers(last) == [BackupStart(i)]
    requires Invocations(last) == ShellCalls(Hooks(jobs[i - 1].before))
    requires Observed(last) == JobPlan(jobs[i - 1], i)
    requires last == JobEvents(jobs[i - 1], i)
    ensures Stopped(jobs, events + last, MissingPath(jobs[i - 1]))
  {
    CompletedAt(jobs, i - 1);
    MarkersAppend(events, last);
    InvocationsAppend(events, last);
    ObservedAppend(events, last);
  }

  /**
   * `cook`: the jobs in list order, job i (from 1) bracketed by its two
   * records, making exactly the planned invocations. A job missing a path
   * ends the run with `KeyError`: the jobs before it completed, it was
   * opened and ran its before hooks, and no later job started.
   */
  method Cook(jobs: seq<Job>, reg0: Registry) returns (r: Run)
    ensures WellFormed(reg0) ==> WellFormed(r.reg)
    ensures Invocations(r.events) == PlannedRun(jobs)
    ensures Observed(r.events) == PlannedTrace(jobs)
    ensures r.events == PlannedEvents(jobs)
    ensures r.failure.None? <==> Completed(jobs) == |jobs|
    ensures r.failure.None? ==> Markers(r.events) == Brackets(|jobs|)
    ensures r.failure.Some? ==> r.failure.value == MissingPath(jobs[Completed(jobs)])
    ensures r.failure.Some? ==> Markers(r.events) == Brackets(Completed(jobs)) + [BackupStart(Completed(jobs) + 1)]
    ensures |jobs| == 0 ==> r == Run([], reg0, None)
  {
    var trace: seq<Event> := [];
    var current := reg0;
    var raised: Option<Failure> := None;
    var i := 1;
    while i <= |jobs| && raised.None?
      invariant 1 <= i <= |jobs| + 1
      invariant raised.None? ==> Partial(jobs, i, trace)
      invariant raised.Some? ==> Stopped(jobs, trace, raised.value)
      invariant WellFormed(reg0) ==> WellFormed(current)
      invariant |jobs| == 0 ==> trace == [] && current == reg0
      decreases |jobs| + 1 - i, if raised.None? then 1 else 0
    {
      trace, current, raised := NextJob(jobs, i, trace, current);
      if raised.None? {
        i := i + 1;
      }
    }
    if raised.None? {
      FinishedRun(jobs, trace);
    } else {
      StoppedRun(jobs, trace, raised.value);
    }
    r := Run(trace, current, raised);
  }

  /**
   * One iteration of `cook`: job i runs after jobs 1 to i - 1 completed.
   * Either it completes too, or it raises `KeyError` and the run stops.
   */
  method NextJob(jobs: seq<Job>, i: nat, events: seq<Event>, reg: Registry)
    returns (events': seq<Event>, reg': Registry, failure: Option<Failure>)
    requires i <= |jobs| && Partial(jobs, i, events)
    ensures failure.None? <==> HasPaths(jobs[i - 1])
    ensures failure.None? ==> Partial(jobs, i + 1, events')
    ensures failure.Some? ==> Stopped(jobs, events', failure.value)
    ensures WellFormed(reg) ==> WellFormed(reg')
  {
    var r := ExecuteBackup(jobs[i - 1], i, reg);
    if r.failure.Some? {
      FailedStep(jobs, i, events, r.events);
    } else {
      CompletedStep(jobs, i, events, r.events);
    }
    events', reg', failure := events + r.events, r.reg, r.failure;
  }

  /**
   * `BakeUp(config).cook()`: the `bakeup` logger is set up, the configuration
   * loaded, then every job cooked. A document without `backups` raises
   * `KeyError` before any job or process runs.
   */
  method Session(doc: ConfigDoc, reg0: Registry) returns (events: seq<Event>, reg: Registry, failure: Option<Failure>)
    ensures WellFormed(reg0) ==> WellFormed(reg)
    ensures |events| > 0 && events[0] == Log(Info, LoadingConfig)
    ensures doc.backups.None? ==>
              && failure == Some(KeyError("backups"))
              && events == [Log(Info, LoadingConfig)]
    ensures doc.backups.Some? ==> Served(doc.backups.value, events, failure)
  {
    reg := GetLogger(reg0, OwnLogger);
    events := [Log(Info, LoadingConfig)];
    if doc.backups.None? {
      failure := Some(KeyError("backups"));
      return;
    }
    var header := [Log(Info, LoadingConfig), Log(Info, ConfigLoaded)];
    var run := Cook(doc.backups.value, reg);
    Loaded(doc.backups.value, run.events, run.failure);
    reg := run.reg;
    events := header + run.events;
    failure := run.failure;
  }

  /**
   * What a session that loaded the job list `jobs` shows: the two loading
   * records, then exactly what the run is expected to log, which makes the
   * planned invocations inside their jobs' brackets and ends with the
   * `KeyError` of the first job missing a path, if any.
   */
  predicate Served(jobs: seq<Job>, events: seq<Event>, failure: Option<Failure>) {
    && |events| > 1 && events[0] == Log(Info, LoadingConfig) && events[1] == Log(Info, ConfigLoaded)
    && events == [Log(Info, LoadingConfig), Log(Info, ConfigLoaded)] + PlannedEvents(jobs)
    && Invocations(events) == PlannedRun(jobs)
    && Observed(events) == PlannedTrace(jobs)
    && (failure.None? <==> Completed(jobs) == |jobs|)
    && (failure.None? ==> Markers(events) == Brackets(|jobs|))
    && (failure.Some? ==>
          var k := Completed(jobs);
          && failure.value == MissingPath(jobs[k])
          && Markers(events) == Brackets(k) + [BackupStart(k + 1)])
  }

  /** A cooked run behind the two loading records: the records change none of what the run shows. */
  lemma Loaded(jobs: seq<Job>, ran: seq<Event>, failure: Option<Failure>)
    requires Invocations(ran) == PlannedRun(jobs)
    requires Observed(ran) == PlannedTrace(jobs)
    requires ran == PlannedEvents(jobs)
    requires failure.None? <==> Completed(jobs) == |jobs|
    requires failure.None? ==> Markers(ran) == Brackets(|jobs|)
    requires failure.Some? ==> failure.value == MissingPath(jobs[Completed(jobs)])
    requires failure.Some? ==> Markers(ran) == Brackets(Completed(jobs)) + [BackupStart(Completed(jobs) + 1)]
    ensures Served(jobs, [Log(Info, LoadingConfig), Log(Info, ConfigLoaded)] + ran, failure)
  {
    Headed(ran, PlannedRun(jobs), PlannedTrace(jobs), Markers(ran), PlannedEvents(jobs));
  }

  /** The two loading records in front of a trace change none of what it shows. */
  lemma Headed(ran: seq<Event>, calls: seq<Call>, obs: seq<Obs>, ms: seq<Message>, planned: seq<Event>)
    requires Invocations(ran) == calls && Observed(ran) == obs && Markers(ran) == ms && ran == planned
    ensures var events := [Log(Info, LoadingConfig), Log(Info, ConfigLoaded)] + ran;
            && |events| > 1 && events[0] == Log(Info, LoadingConfig) && events[1] == Log(Info, ConfigLoaded)
            && events == [Log(Info, LoadingConfig), Log(Info, ConfigLoaded)] + planned
            && Invocations(events) == calls && Observed(events) == obs && Markers(events) == ms
  {
    HeaderTrace(ran);
  }

  /** The two loading records add no marker and no invocation. */
  lemma HeaderTrace(ran: seq<Event>)
    ensures var header := [Log(Info, LoadingConfig), Log(Info, ConfigLoaded)];
            && Markers(header + ran) == Markers(ran)
            && Invocations(header + ran) == Invocations(ran)
            && Observed(header + ran) == Observed(ran)
  {
    var first := [Log(Info, LoadingConfig)];
    var second := [Log(Info, ConfigLoaded)];
    LogMarker(Info, LoadingConfig);
    LogMarker(Info, ConfigLoaded);
    LogInvokesNothing(Info, LoadingConfig);
    LogInvokesNothing(Info, ConfigLoaded);
    JoinTraces(first, second, ran);
    LogObserved(Info, LoadingConfig);
    LogObserved(Info, ConfigLoaded);
    ObservedAppend(first, second);
    ObservedAppend(first + second, ran);
    assert first + second == [Log(Info, LoadingConfig), Log(Info, ConfigLoaded)];
  }
}

=== FILE: logging.dfy ===
/**
 * The logger registry behind `__get_logger`: loggers are created on first
 * use, and a stdout handler is attached only when the logger cannot already
 * reach one. Only the handler count per logger name is kept.
 */
module Logging {

  /** Handler count of every logger created so far; the root logger is keyed by "". */
  type Registry = map<string, nat>

  /** `logging.getLogger("")` returns the root logger. */
  const RootName: string := ""

  /** Handlers attached to the logger `name`; a logger not yet created has none. */
  function Handlers(reg: Registry, name: string): nat {
    if name in reg then reg[name] else 0
  }

  /** No logger carries more than one handler. */
  predicate WellFormed(reg: Registry) {
    forall n :: n in reg ==> reg[n] <= 1
  }

  /**
   * `Logger.hasHandlers()`: the logger itself, one of its dotted ancestors
   * (`a` and `a.b` for `a.b.c`) or the root logger has a handler.
   */
  predicate HasHandlers(reg: Registry, name: string) {
    || Handlers(reg, name) > 0
    || Handlers(reg, RootName) > 0
    || exists i :: 0 < i < |name| && name[i] == '.' && Handlers(reg, name[..i]) > 0
  }

  /**
   * Handlers are inherited down the dotted hierarchy: a child of a logger
   * that reaches a handler reaches one too.
   */
  lemma HasHandlersInherited(reg: Registry, parent: string, suffix: string)
    requires HasHandlers(reg, parent)
    ensures HasHandlers(reg, parent + "." + suffix)
  {
    var child := parent + "." + suffix;
    if Handlers(reg, parent) > 0 && parent != RootName {
      assert child[..|parent|] == parent && child[|parent|] == '.';
    } else if Handlers(reg, RootName) == 0 && Handlers(reg, parent) == 0 {
      var i :| 0 < i < |parent| && parent[i] == '.' && Handlers(reg, parent[..i]) > 0;
      assert child[..i] == parent[..i] && child[i] == '.';
    }
  }

  /**
   * `__get_logger(name)`: creates the logger if absent and attaches one
   * handler unless the logger already reaches one.
   */
  function GetLogger(reg: Registry, name: string): (r: Registry)
    ensures r.Keys == reg.Keys + {name}
    ensures forall n :: n in reg && n != name ==> r[n] == reg[n]
    ensures HasHandlers(reg, name) ==> Handlers(r, name) == Handlers(reg, name)
    ensures !HasHandlers(reg, name) ==> Handlers(reg, name) == 0 && r[name] == 1
    ensures HasHandlers(r, name)
    ensures WellFormed(reg) ==> WellFormed(r)
  {
    if HasHandlers(reg, name) then reg[name := Handlers(reg, name)] else reg[name := 1]
  }

  /** Asking for the same logger twice changes nothing the second time. */
  lemma GetLoggerIdempotent(reg: Registry, name: string)
    ensures GetLogger(GetLogger(reg, name), name) == GetLogger(reg, name)
  {
  }

  /** The registry after a sequence of `__get_logger` calls, in order. */
  function GetLoggers(reg: Registry, names: seq<string>): Registry
    decreases |names|
  {
    if |names| == 0 then reg else GetLoggers(GetLogger(reg, names[0]), names[1..])
  }

  /**
   * After any sequence of calls every name asked for exists, no logger has
   * more than one handler, and a logger that had a handler keeps exactly
   * the handlers it had.
   */
  lemma {:induction false} GetLoggersInvariant(reg: Registry, names: seq<string>)
    requires WellFormed(reg)
    ensures WellFormed(GetLoggers(reg, names))
    ensures GetLoggers(reg, names).Keys == reg.Keys + (set n | n in names)
    ensures forall n :: n in reg && reg[n] > 0 ==> GetLoggers(reg, names)[n] == reg[n]
    ensures forall n :: n in names ==> HasHandlers(GetLoggers(reg, names), n)
    decreases |names|
  {
    if |names| > 0 {
      var next := GetLogger(reg, names[0]);
      GetLoggersInvariant(next, names[1..]);
      assert (set n | n in names) == {names[0]} + (set n | n in names[1..]);
      HasHandlersStable(next, names[1..], names[0]);
    }
  }

  /** A logger that reaches a handler still does after further calls. */
  lemma {:induction false} HasHandlersStable(reg: Registry, names: seq<string>, name: string)
    requires HasHandlers(reg, name)
    ensures HasHandlers(GetLoggers(reg, names), name)
    decreases |names|
  {
    if |names| > 0 {
      var next := GetLogger(reg, names[0]);
      assert HasHandlers(next, name) by {
        if Handlers(reg, name) > 0 {
          assert Handlers(next, name) > 0;
        } else if Handlers(reg, RootName) > 0 {
          assert Handlers(next, RootName) > 0;
        } else {
          var i :| 0 < i < |name| && name[i] == '.' && Handlers(reg, name[..i]) > 0;
          assert Handlers(next, name[..i]) > 0;
        }
      }
      HasHandlersStable(next, names[1..], name);
    }
  }
}

=== FILE: output.dfy ===
/**
 * Output capture of `__exec` and `__log_ouput`: a child's text stream is
 * read line by line, and each line is logged once with its trailing
 * whitespace removed.
 */
module Output {

  /** Python's `str.isspace` for one character. */
  predicate IsSpace(c: char) {
    || c == ' ' || '\t' <= c <= '\r' || '\U{1C}' <= c <= '\U{1F}'
    || c == '\U{85}' || c == '\U{A0}' || c == '\U{1680}'
    || '\U{2000}' <= c <= '\U{200A}' || c == '\U{2028}' || c == '\U{2029}'
    || c == '\U{202F}' || c == '\U{205F}' || c == '\U{3000}'
  }

  /**
   * `str.rstrip()` with no argument: the longest prefix that does not end in
   * whitespace; everything cut off is whitespace.
   */
  function RStrip(s: string): (t: string)
    ensures |t| <= |s| && t == s[..|t|]
    ensures forall i :: |t| <= i < |s| ==> IsSpace(s[i])
    ensures |t| == 0 || !IsSpace(t[|t| - 1])
  {
    if |s| > 0 && IsSpace(s[|s| - 1]) then RStrip(s[..|s| - 1]) else s
  }

  /** The three properties of `RStrip` pin its result down. */
  lemma {:induction false} RStripUnique(s: string, t: string)
    requires |t| <= |s| && t == s[..|t|]
    requires forall i :: |t| <= i < |s| ==> IsSpace(s[i])
    requires |t| == 0 || !IsSpace(t[|t| - 1])
    ensures RStrip(s) == t
  {
    if |s| > |t| {
      assert IsSpace(s[|s| - 1]);
      var s' := s[..|s| - 1];
      assert t == s'[..|t|];
      RStripUnique(s', t);
    }
  }

  /** Stripping twice is stripping once. */
  lemma RStripIdempotent(s: string)
    ensures RStrip(RStrip(s)) == RStrip(s)
  {
    var t := RStrip(s);
    RStripUnique(t, t);
  }

  /** The position just after the first newline, or the end of the text. */
  function LineEnd(text: string): (k: nat)
    requires |text| > 0
    ensures 0 < k <= |text|
    ensures forall j :: 0 <= j < k - 1 ==> text[j] != '\n'
    ensures k < |text| ==> text[k - 1] == '\n'
    ensures k == |text| || text[k - 1] == '\n'
  {
    if text[0] == '\n' || |text| == 1 then 1 else 1 + LineEnd(text[1..])
  }

  /** The sequence of strings written one after another. */
  function Concat(parts: seq<string>): string {
    if |parts| == 0 then [] else parts[0] + Concat(parts[1..])
  }

  /**
   * Iterating a text stream: every line keeps its newline, only the last
   * line may lack one, and no line is empty.
   */
  function Lines(text: string): (lines: seq<string>)
    ensures Concat(lines) == text
    ensures forall i :: 0 <= i < |lines| ==> |lines[i]| > 0
    ensures forall i :: 0 <= i < |lines| - 1 ==> lines[i][|lines[i]| - 1] == '\n'
    ensures forall i, j :: 0 <= i < |lines| && 0 <= j < |lines[i]| - 1 ==> lines[i][j] != '\n'
    decreases |text|
  {
    if |text| == 0 then []
    else
      var k := LineEnd(text);
      var rest := Lines(text[k..]);
      assert text == text[..k] + text[k..];
      ConsLine(text[..k], rest);
      [text[..k]] + rest
  }

  /** A first line in front of well-formed later lines keeps the lines well-formed. */
  lemma ConsLine(line: string, rest: seq<string>)
    requires |line| > 0
    requires forall j :: 0 <= j < |line| - 1 ==> line[j] != '\n'
    requires |rest| > 0 ==> line[|line| - 1] == '\n'
    requires forall i :: 0 <= i < |rest| ==> |rest[i]| > 0
    requires forall i :: 0 <= i < |rest| - 1 ==> rest[i][|rest[i]| - 1] == '\n'
    requires forall i, j :: 0 <= i < |rest| && 0 <= j < |rest[i]| - 1 ==> rest[i][j] != '\n'
    ensures var lines := [line] + rest;
            && (forall i :: 0 <= i < |lines| ==> |lines[i]| > 0)
            && (forall i :: 0 <= i < |lines| - 1 ==> lines[i][|lines[i]| - 1] == '\n')
            && (forall i, j :: 0 <= i < |lines| && 0 <= j < |lines[i]| - 1 ==> lines[i][j] != '\n')
  {
    var lines := [line] + rest;
    forall i | 0 < i < |lines|
      ensures lines[i] == rest[i - 1]
    {
    }
  }

  /** The number of newline characters in a text. */
  function Newlines(text: string): nat {
    if |text| == 0 then 0 else (if text[0] == '\n' then 1 else 0) + Newlines(text[1..])
  }

  lemma {:induction false} NewlinesAppend(a: string, b: string)
    ensures Newlines(a + b) == Newlines(a) + Newlines(b)
  {
    if |a| > 0 {
      assert (a + b)[1..] == a[1..] + b;
      NewlinesAppend(a[1..], b);
    } else {
      assert a + b == b;
    }
  }

  lemma {:induction false} NewlinesOfLine(line: string)
    requires forall j :: 0 <= j < |line| - 1 ==> line[j] != '\n'
    ensures Newlines(line) == if |line| > 0 && line[|line| - 1] == '\n' then 1 else 0
  {
    if |line| > 1 {
      NewlinesOfLine(line[1..]);
    }
  }

  /**
   * A stream with n newlines reads as n lines, plus one for a final line
   * that has no newline.
   */
  lemma {:induction false} LinesCount(text: string)
    ensures |Lines(text)| == Newlines(text) + (if |text| > 0 && text[|text| - 1] != '\n' then 1 else 0)
    decreases |text|
  {
    if |text| > 0 {
      var k := LineEnd(text);
      var line := text[..k];
      assert text == line + text[k..];
      NewlinesAppend(line, text[k..]);
      NewlinesOfLine(line);
      LinesCount(text[k..]);
      if k < |text| {
        assert text[|text| - 1] == text[k..][|text[k..]| - 1];
      }
    }
  }

  /** `__log_ouput`: one message per line, in order, each line right-stripped. */
  function LogOutput(lines: seq<string>): (msgs: seq<string>)
    ensures |msgs| == |lines|
    ensures forall i :: 0 <= i < |lines| ==>
              |msgs[i]| <= |lines[i]| && msgs[i] == lines[i][..|msgs[i]|]
    ensures forall i :: 0 <= i < |lines| ==>
              forall j :: |msgs[i]| <= j < |lines[i]| ==> IsSpace(lines[i][j])
    ensures forall i :: 0 <= i < |lines| ==> |msgs[i]| == 0 || !IsSpace(msgs[i][|msgs[i]| - 1])
  {
    if |lines| == 0 then [] else [RStrip(lines[0])] + LogOutput(lines[1..])
  }

  /**
   * Draining a whole stream: one message per line of the text, and no
   * message carries a newline.
   */
  lemma DrainStream(text: string)
    ensures |LogOutput(Lines(text))| == Newlines(text) + (if |text| > 0 && text[|text| - 1] != '\n' then 1 else 0)
    ensures forall m :: m in LogOutput(Lines(text)) ==> '\n' !in m
  {
    LinesCount(text);
    var lines := Lines(text);
    var msgs := LogOutput(lines);
    forall i | 0 <= i < |msgs|
      ensures '\n' !in msgs[i]
    {
      StrippedLine(lines[i], msgs[i]);
    }
  }

  /** A stripped prefix of a line has no newline: only a line's last character can be one, and that is whitespace. */
  lemma StrippedLine(line: string, m: string)
    requires forall j :: 0 <= j < |line| - 1 ==> line[j] != '\n'
    requires |m| <= |line| && m == line[..|m|]
    requires |m| == 0 || !IsSpace(m[|m| - 1])
    ensures '\n' !in m
  {
    forall p | 0 <= p < |m|
      ensures m[p] != '\n'
    {
      assert m[p] == line[p];
      if p == |m| - 1 {
        assert IsSpace('\n');
      }
    }
  }
}

=== FILE: rsync.dfy ===
/**
 * The rsync command builder: the argument vector `__execute_rsync` hands to
 * the process runner, and the extraction of its arguments from a job done by
 * `__execute_backup`.
 */
module Rsync {
  import opened Wrappers
  import opened Config

  /** Program name and the flags every job gets, in this order. */
  const FixedFlags: seq<string> := ["rsync", "-av", "--delete-before", "--force", "--stats"]

  /** The arguments of one `__execute_rsync` call. */
  datatype RsyncCall = RsyncCall(dryRun: bool, source: string, dest: string, exceptions: Option<seq<string>>)

  /**
   * What `__execute_backup` passes to `__execute_rsync`: the dry-run flag, the
   * `exceptions` value when present and not null, and the two paths, looked
   * up `source` first. A missing path raises `KeyError`.
   */
  function PrepareCall(job: Job): (r: Result<RsyncCall, Failure>)
    ensures r.Success? <==> HasPaths(job)
    ensures r.Failure? ==> r.error == MissingPath(job)
    ensures r.Success? ==> Some(r.value.source) == job.source && Some(r.value.dest) == job.dest
    ensures r.Success? ==> (r.value.dryRun <==> job.dryRun == Some(Bool(true)))
    ensures r.Success? ==> r.value.exceptions == job.exceptions
  {
    if job.source.None? then Failure(KeyError("source"))
    else if job.dest.None? then Failure(KeyError("dest"))
    else Success(RsyncCall(DryRun(job), job.source.value, job.dest.value, job.exceptions))
  }

  /**
   * The patterns the `if exceptions:` test lets through: `None` and the
   * empty list are both false in Python, and both contribute nothing.
   */
  function Excluded(exceptions: Option<seq<string>>): seq<string> {
    exceptions.GetOr([])
  }

  /** One `--exclude` pair per pattern, in list order. */
  function ExcludeArgs(patterns: seq<string>): (r: seq<string>)
    ensures |r| == 2 * |patterns|
    ensures forall j :: 0 <= j < |patterns| ==> r[2 * j] == "--exclude" && r[2 * j + 1] == patterns[j]
  {
    if |patterns| == 0 then []
    else
      var rest := ExcludeArgs(patterns[1..]);
      ExcludePairs(patterns, rest);
      ["--exclude", patterns[0]] + rest
  }

  /** Putting the first pattern's pair in front of the pairs of the others. */
  lemma ExcludePairs(patterns: seq<string>, rest: seq<string>)
    requires |patterns| > 0 && |rest| == 2 * (|patterns| - 1)
    requires forall j :: 0 <= j < |patterns| - 1 ==> rest[2 * j] == "--exclude" && rest[2 * j + 1] == patterns[1..][j]
    ensures var r := ["--exclude", patterns[0]] + rest;
            forall j :: 0 <= j < |patterns| ==> r[2 * j] == "--exclude" && r[2 * j + 1] == patterns[j]
  {
    var r := ["--exclude", patterns[0]] + rest;
    forall j | 0 <= j < |patterns|
      ensures r[2 * j] == "--exclude" && r[2 * j + 1] == patterns[j]
    {
      if j > 0 {
        assert r[2 * j] == rest[2 * (j - 1)];
        assert r[2 * j + 1] == rest[2 * (j - 1) + 1];
        assert patterns[j] == patterns[1..][j - 1];
      }
    }
  }

  /** The rsync argument vector for one call. */
  function BuildCommand(call: RsyncCall): (argv: seq<string>)
    ensures |argv| == 5 + (if call.dryRun then 1 else 0) + 2 * |Excluded(call.exceptions)| + 2
  {
    var dry := if call.dryRun then ["--dry-run"] else [];
    FixedFlags + dry + ExcludeArgs(Excluded(call.exceptions)) + [call.source, call.dest]
  }

  /**
   * The layout of the vector: the fixed flags, `--dry-run` right after them
   * when set, the exclude pairs, then source and dest. The length alone tells
   * whether `--dry-run` is there.
   */
  lemma CommandLayout(call: RsyncCall)
    ensures var argv := BuildCommand(call);
            && argv[..5] == FixedFlags
            && argv[0] == "rsync"
            && argv[|argv| - 2] == call.source && argv[|argv| - 1] == call.dest
            && (call.dryRun ==> argv[5] == "--dry-run")
            && (call.dryRun <==> |argv| % 2 == 0)
            && argv[if call.dryRun then 6 else 5..|argv| - 2] == ExcludeArgs(Excluded(call.exceptions))
  {
    var argv := BuildCommand(call);
    var dry := if call.dryRun then ["--dry-run"] else [];
    var ex := ExcludeArgs(Excluded(call.exceptions));
    assert argv == FixedFlags + dry + ex + [call.source, call.dest];
    assert argv[..5] == FixedFlags;
    assert argv[0] == FixedFlags[0];
    assert argv[if call.dryRun then 6 else 5..|argv| - 2] == ex;
  }

  /** An rsync vector read back into its parts. */
  datatype Parsed = Parsed(dryRun: bool, excludes: seq<string>, source: string, dest: string)

  /** Reads a run of `--exclude` pairs back into the pattern list. */
  function ParseExcludes(args: seq<string>): Option<seq<string>> {
    if |args| == 0 then Some([])
    else if |args| < 2 || args[0] != "--exclude" then None
    else match ParseExcludes(args[2..])
      case None => None
      case Some(rest) => Some([args[1]] + rest)
  }

  /**
   * Reads an argument vector back as a dry-run flag, exclude patterns and the
   * two paths. The length fixes whether `--dry-run` is there: the flag is the
   * only part of odd length.
   */
  function ParseCommand(argv: seq<string>): Option<Parsed> {
    if |argv| < 7 || argv[..5] != FixedFlags then None
    else
      var dry := |argv| % 2 == 0;
      if dry && argv[5] != "--dry-run" then None
      else
        var off := if dry then 6 else 5;
        match ParseExcludes(argv[off..|argv| - 2])
        case None => None
        case Some(ex) => Some(Parsed(dry, ex, argv[|argv| - 2], argv[|argv| - 1]))
  }

  lemma {:induction false} ParseExcludeArgs(patterns: seq<string>)
    ensures ParseExcludes(ExcludeArgs(patterns)) == Some(patterns)
  {
    if |patterns| > 0 {
      var args := ExcludeArgs(patterns);
      assert args[2..] == ExcludeArgs(patterns[1..]);
      ParseExcludeArgs(patterns[1..]);
      assert [patterns[0]] + patterns[1..] == patterns;
    }
  }

  lemma {:induction false} ExcludeArgsParse(args: seq<string>, patterns: seq<string>)
    requires ParseExcludes(args) == Some(patterns)
    ensures ExcludeArgs(patterns) == args
    decreases |args|
  {
    if |args| > 0 {
      var rest := ParseExcludes(args[2..]).value;
      ExcludeArgsParse(args[2..], rest);
      assert patterns == [args[1]] + rest;
      assert patterns[1..] == rest;
      assert args == [args[0], args[1]] + args[2..];
    }
  }

  /** Reading a built vector back yields exactly the call's parts. */
  lemma ParseBuildCommand(call: RsyncCall)
    ensures ParseCommand(BuildCommand(call)) ==
            Some(Parsed(call.dryRun, Excluded(call.exceptions), call.source, call.dest))
  {
    var argv := BuildCommand(call);
    var ex := Excluded(call.exceptions);
    var off := if call.dryRun then 6 else 5;
    var dry := if call.dryRun then ["--dry-run"] else [];
    assert argv == FixedFlags + dry + ExcludeArgs(ex) + [call.source, call.dest];
    assert argv[off..|argv| - 2] == ExcludeArgs(ex);
    ParseExcludeArgs(ex);
  }

  /** Every vector that reads back is the one built from what it reads back as. */
  lemma BuildParsedCommand(argv: seq<string>)
    requires ParseCommand(argv).Some?
    ensures var p := ParseCommand(argv).value;
            BuildCommand(RsyncCall(p.dryRun, p.source, p.dest, Some(p.excludes))) == argv
  {
    var p := ParseCommand(argv).value;
    var off := if p.dryRun then 6 else 5;
    var mid := argv[off..|argv| - 2];
    assert ParseExcludes(mid) == Some(p.excludes);
    ExcludeArgsParse(mid, p.excludes);
    var head := FixedFlags + (if p.dryRun then ["--dry-run"] else []);
    assert argv[..off] == head;
    var tail := [p.source, p.dest];
    assert argv[|argv| - 2..] == tail;
    SplitThree(argv, off, |argv| - 2);
  }

  lemma SplitThree(s: seq<string>, i: nat, j: nat)
    requires i <= j <= |s|
    ensures s == s[..i] + s[i..j] + s[j..]
  {
  }

  /** Two calls that build the same vector agree on everything the vector encodes. */
  lemma BuildCommandInjective(a: RsyncCall, b: RsyncCall)
    requires BuildCommand(a) == BuildCommand(b)
    ensures a.dryRun == b.dryRun && a.source == b.source && a.dest == b.dest
    ensures Excluded(a.exceptions) == Excluded(b.exceptions)
  {
    ParseBuildCommand(a);
    ParseBuildCommand(b);
  }

  /**
   * The vector of a job with both paths: `--dry-run` is read back exactly
   * when the job's `dry-run` value is the JSON literal `true`, and the
   * exclude patterns are the job's `exceptions` list, or none.
   */
  lemma JobCommand(job: Job)
    requires HasPaths(job)
    ensures PrepareCall(job).Success?
    ensures ParseCommand(BuildCommand(PrepareCall(job).value)) ==
            Some(Parsed(job.dryRun == Some(Bool(true)), job.exceptions.GetOr([]),
                        job.source.value, job.dest.value))
  {
    ParseBuildCommand(PrepareCall(job).value);
  }
}

=== FILE: runner.dfy ===
/**
 * The process runner `__exec`: an empty command is skipped; otherwise the
 * logger named after the program is fetched and the command is invoked.
 */
module Runner {
  import opened Config
  import opened Logging
  import opened Trace

  /** `os.path.basename`: the text after the last `/`, or all of it. */
  function Basename(path: string): (b: string)
    ensures '/' !in b
    ensures |b| <= |path| && b == path[|path| - |b|..]
    ensures |b| < |path| ==> path[|path| - |b| - 1] == '/'
  {
    if |path| == 0 || path[|path| - 1] == '/' then ""
    else Basename(path[..|path| - 1]) + [path[|path| - 1]]
  }

  /** `len(args) < 1`: an empty string or an empty argument list. */
  predicate IsEmpty(cmd: Command) {
    match cmd
    case Line(t) => |t| == 0
    case Argv(a) => |a| == 0
  }

  /**
   * The logger name `__exec` uses: the basename of `args[0]`. For a string
   * command `args[0]` is its first character, so the name is that character,
   * or the root logger's name when the character is `/`.
   */
  function ProgramName(cmd: Command): (name: string)
    requires !IsEmpty(cmd)
    ensures cmd.Line? ==> name == if cmd.text[0] == '/' then RootName else [cmd.text[0]]
    ensures cmd.Argv? ==> '/' !in name && |name| <= |cmd.args[0]| && name == cmd.args[0][|cmd.args[0]| - |name|..]
    ensures cmd.Argv? && |name| < |cmd.args[0]| ==> cmd.args[0][|cmd.args[0]| - |name| - 1] == '/'
    ensures cmd.Argv? && '/' !in cmd.args[0] ==> name == cmd.args[0]
  {
    match cmd
    case Line(t) => Basename([t[0]])
    case Argv(a) => BasenameOfPlain(a[0]); Basename(a[0])
  }

  /**
   * The three properties of `Basename` pin it down: a `/`-free suffix that
   * is either the whole path or starts right after a `/` is the basename.
   */
  lemma BasenameUnique(path: string, b: string)
    requires '/' !in b
    requires |b| <= |path| && b == path[|path| - |b|..]
    requires |b| < |path| ==> path[|path| - |b| - 1] == '/'
    ensures b == Basename(path)
  {
    var c := Basename(path);
    if |b| < |c| {
      LongerSuffix(path, b, c);
    } else if |c| < |b| {
      LongerSuffix(path, c, b);
    }
  }

  /** A suffix longer than one starting right after a `/` contains that `/`. */
  lemma LongerSuffix(path: string, b: string, c: string)
    requires |b| < |c| <= |path| && c == path[|path| - |c|..]
    requires path[|path| - |b| - 1] == '/'
    ensures '/' in c
  {
    assert c[|c| - |b| - 1] == path[|path| - |b| - 1];
  }

  /** A path without `/` is its own basename. */
  lemma BasenameOfPlain(path: string)
    ensures '/' !in path ==> Basename(path) == path
  {
  }

  /** The trace of a step and the logger registry after it. */
  datatype Step = Step(events: seq<Event>, reg: Registry)

  /**
   * `__exec(args, shell)`: at most one invocation, of exactly this command
   * with this shell flag, reported to a logger that reaches a handler.
   */
  function Exec(cmd: Command, shell: bool, reg: Registry): (s: Step)
    ensures IsEmpty(cmd) ==> s.events == [] && s.reg == reg
    ensures Invocations(s.events) == if IsEmpty(cmd) then [] else [Call(cmd, shell)]
    ensures |s.events| == (if IsEmpty(cmd) then 0 else 1) && Markers(s.events) == []
    ensures !IsEmpty(cmd) ==> s.events[0].logger == ProgramName(cmd)
    ensures forall e :: e in s.events ==> e.Invoke? && HasHandlers(s.reg, e.logger)
    ensures WellFormed(reg) ==> WellFormed(s.reg)
  {
    if IsEmpty(cmd) then Step([], reg)
    else
      var name := ProgramName(cmd);
      Step([Invoke(cmd, shell, name)], GetLogger(reg, name))
  }
}

=== FILE: trace.dfy ===
/**
 * The observable behaviour of a run: log records and process invocations,
 * in the order the driver produces them.
 */
module Trace {
  import opened Config

  datatype Level = Info | Warning | Error

  /** The two hook phases of a job. */
  datatype Phase = Before | After

  /** The messages the orchestrator's own `bakeup` logger writes. */
  datatype Message =
    | LoadingConfig
    | ConfigLoaded
    | BackupStart(index: nat)
    | BackupEnd(index: nat)
    | ScriptStart(phase: Phase)
    | ScriptEnd(phase: Phase)
    | PerformingBackup
    | CommandText(text: string)
    | BackupDone

  /** The name of the orchestrator's own logger. */
  const OwnLogger: string := "bakeup"

  datatype Event =
    | Log(level: Level, msg: Message)
    | Invoke(cmd: Command, shell: bool, logger: string)

  /** `"%d" % n` for a natural number: its decimal digits. */
  function Decimal(n: nat): (s: string)
    ensures |s| > 0
    ensures forall i :: 0 <= i < |s| ==> '0' <= s[i] <= '9'
    ensures s[0] == '0' ==> n == 0
  {
    if n < 10 then [Digit(n)] else Decimal(n / 10) + [Digit(n % 10)]
  }

  function Digit(d: nat): char
    requires d < 10
  {
    "0123456789"[d]
  }

  /** Reads decimal digits back as a number. */
  function DigitsValue(s: string): nat
    requires forall i :: 0 <= i < |s| ==> '0' <= s[i] <= '9'
  {
    if |s| == 0 then 0
    else 10 * DigitsValue(s[..|s| - 1]) + (s[|s| - 1] as int - '0' as int)
  }

  /** The rendering of an index reads back as that index. */
  lemma {:induction false} DecimalRoundTrip(n: nat)
    ensures DigitsValue(Decimal(n)) == n
  {
    if n >= 10 {
      var s := Decimal(n);
      assert s[..|s| - 1] == Decimal(n / 10);
      DecimalRoundTrip(n / 10);
    }
  }

  /** The text each message is logged with. */
  function Text(m: Message): string {
    match m
    case LoadingConfig => "Loading configuration file..."
    case ConfigLoaded => "Config loaded"
    case BackupStart(i) => "Executing backup #" + Decimal(i)
    case BackupEnd(i) => "Done executing backup #" + Decimal(i)
    case ScriptStart(Before) => "Executing 'before' script"
    case ScriptEnd(Before) => "Done executing 'before' script"
    case ScriptStart(After) => "Executing 'after' script"
    case ScriptEnd(After) => "Done executing 'after' script"
    case PerformingBackup => "Performing backup"
    case CommandText(t) => t
    case BackupDone => "Backup done"
  }

  /** Distinct job indices are logged with distinct texts. */
  lemma BackupTextsDistinct(i: nat, j: nat)
    requires i != j
    ensures Text(BackupStart(i)) != Text(BackupStart(j))
    ensures Text(BackupEnd(i)) != Text(BackupEnd(j))
  {
    DecimalRoundTrip(i);
    DecimalRoundTrip(j);
    assert Decimal(i) != Decimal(j);
    PrefixCancel("Executing backup #", Decimal(i), Decimal(j));
    PrefixCancel("Done executing backup #", Decimal(i), Decimal(j));
  }

  lemma PrefixCancel(p: string, a: string, b: string)
    requires a != b
    ensures p + a != p + b
  {
    assert (p + a)[|p|..] == a;
    assert (p + b)[|p|..] == b;
  }

  /** Two different fixed records never log the same text. */
  lemma TextsDistinct(a: Message, b: Message)
    requires a != b && !a.CommandText? && !b.CommandText?
    ensures Text(a) != Text(b)
  {
    if a.BackupStart? && b.BackupStart? {
      BackupTextsDistinct(a.index, b.index);
    } else if a.BackupEnd? && b.BackupEnd? {
      BackupTextsDistinct(a.index, b.index);
    } else {
      SignatureOf(a);
      SignatureOf(b);
    }
  }

  /** What `Signature` reads from each kind of fixed record. */
  function Expected(m: Message): (char, char, char, char)
    requires !m.CommandText?
  {
    match m
    case LoadingConfig => ('L', 'n', 'r', 'a')
    case ConfigLoaded => ('C', 'd', '_', '_')
    case BackupStart(_) => ('E', 'b', 'p', ' ')
    case BackupEnd(_) => ('D', 't', 'b', 'a')
    case ScriptStart(Before) => ('E', '\'', 'r', 'e')
    case ScriptEnd(Before) => ('D', 't', '\'', 'b')
    case ScriptStart(After) => ('E', '\'', 'r', '\'')
    case ScriptEnd(After) => ('D', 't', '\'', 'a')
    case PerformingBackup => ('P', ' ', 'u', 'p')
    case BackupDone => ('B', 'e', '_', '_')
  }

  lemma SignatureOf(m: Message)
    requires !m.CommandText?
    ensures Signature(m) == Expected(m)
  {
  }

  /**
   * Characters 0, 10, 15 and 16 of a fixed record's text (`_` past the end of
   * a short one): enough to tell the kinds of record apart.
   */
  function Signature(m: Message): (char, char, char, char)
    requires !m.CommandText?
  {
    var t := Text(m);
    assert |t| >= 11;
    if |t| > 16 then (t[0], t[10], t[15], t[16]) else (t[0], t[10], '_', '_')
  }

  /** `" ".join(words)`. */
  function JoinWords(words: seq<string>): (text: string)
    ensures |words| == 0 ==> text == ""
    ensures |words| > 0 ==> |text| == TotalLength(words) + |words| - 1
  {
    if |words| == 0 then ""
    else if |words| == 1 then words[0]
    else words[0] + " " + JoinWords(words[1..])
  }

  /** The summed lengths of some words. */
  function TotalLength(words: seq<string>): nat {
    if |words| == 0 then 0 else |words[0]| + TotalLength(words[1..])
  }

  /** `text.split(" ")`: the pieces between single spaces, empty ones included. */
  function SplitSpaces(text: string): (pieces: seq<string>)
    ensures |pieces| > 0
    decreases |text|
  {
    if ' ' !in text then [text]
    else
      var i := FirstSpace(text);
      [text[..i]] + SplitSpaces(text[i + 1..])
  }

  /** The position of the first space of a text that has one. */
  function FirstSpace(text: string): (i: nat)
    requires ' ' in text
    ensures i < |text| && text[i] == ' '
    ensures forall k :: 0 <= k < i ==> text[k] != ' '
  {
    if text[0] == ' ' then 0 else 1 + FirstSpace(text[1..])
  }

  /**
   * Words without spaces can be read back from the joined line. A word with
   * a space (a path, say) makes the line ambiguous.
   */
  lemma {:induction false} JoinWordsSplit(words: seq<string>)
    requires |words| > 0
    requires forall k :: 0 <= k < |words| ==> ' ' !in words[k]
    ensures SplitSpaces(JoinWords(words)) == words
  {
    if |words| > 1 {
      SplitAfterWord(words[0], JoinWords(words[1..]));
      JoinWordsSplit(words[1..]);
      assert words == [words[0]] + words[1..];
    }
  }

  /** A space-free word followed by a space splits off as the first piece. */
  lemma SplitAfterWord(w: string, rest: string)
    requires ' ' !in w
    ensures SplitSpaces(w + " " + rest) == [w] + SplitSpaces(rest)
  {
    var text := w + " " + rest;
    assert text[|w|] == ' ';
    var i := FirstSpace(text);
    assert forall k :: 0 <= k < |w| ==> text[k] == w[k];
    assert i == |w|;
    assert text[..i] == w;
    assert text[i + 1..] == rest;
  }


  /** One process invocation, without its logger. */
  datatype Call = Call(cmd: Command, shell: bool)

  /** The invocations of a trace, in order. */
  function Invocations(events: seq<Event>): (calls: seq<Call>)
    ensures |calls| <= |events|
  {
    if |events| == 0 then []
    else
      (match events[0]
       case Invoke(c, sh, _) => [Call(c, sh)]
       case Log(_, _) => [])
      + Invocations(events[1..])
  }

  /** True for the messages that open and close a job. */
  predicate IsMarker(m: Message) {
    m.BackupStart? || m.BackupEnd?
  }

  /** The job-bracketing messages of a trace, in order. */
  function Markers(events: seq<Event>): seq<Message> {
    if |events| == 0 then []
    else
      (if events[0].Log? && IsMarker(events[0].msg) then [events[0].msg] else [])
      + Markers(events[1..])
  }

  /** A single log record makes no invocation. */
  lemma LogInvokesNothing(level: Level, m: Message)
    ensures Invocations([Log(level, m)]) == []
  {
    assert [Log(level, m)][1..] == [];
  }

  /** A single log record contributes its message to the markers exactly when it is one. */
  lemma LogMarker(level: Level, m: Message)
    ensures IsMarker(m) ==> Markers([Log(level, m)]) == [m]
    ensures !IsMarker(m) ==> Markers([Log(level, m)]) == []
  {
    assert [Log(level, m)][1..] == [];
  }

  lemma {:induction false} InvocationsAppend(a: seq<Event>, b: seq<Event>)
    ensures Invocations(a + b) == Invocations(a) + Invocations(b)
  {
    if |a| == 0 {
      assert a + b == b;
    } else {
      assert (a + b)[1..] == a[1..] + b;
      InvocationsAppend(a[1..], b);
    }
  }

  lemma {:induction false} MarkersAppend(a: seq<Event>, b: seq<Event>)
    ensures Markers(a + b) == Markers(a) + Markers(b)
  {
    if |a| == 0 {
      assert a + b == b;
    } else {
      assert (a + b)[1..] == a[1..] + b;
      MarkersAppend(a[1..], b);
    }
  }

  /** One observable step of a run: a job marker or an invocation. */
  datatype Obs = Mark(msg: Message) | Made(call: Call)

  /**
   * The markers and invocations of a trace, interleaved in the order they
   * happened, so that it shows which invocations fall inside which job.
   */
  function Observed(events: seq<Event>): seq<Obs> {
    if |events| == 0 then []
    else
      (match events[0]
       case Invoke(c, sh, _) => [Made(Call(c, sh))]
       case Log(_, m) => if IsMarker(m) then [Mark(m)] else [])
      + Observed(events[1..])
  }

  /** The observations of invocations made one after the other. */
  function Performed(calls: seq<Call>): (obs: seq<Obs>)
    ensures |obs| == |calls|
  {
    if |calls| == 0 then [] else [Made(calls[0])] + Performed(calls[1..])
  }

  lemma {:induction false} PerformedAppend(a: seq<Call>, b: seq<Call>)
    ensures Performed(a + b) == Performed(a) + Performed(b)
  {
    if |a| == 0 {
      assert a + b == b;
    } else {
      assert (a + b)[0] == a[0] && (a + b)[1..] == a[1..] + b;
      PerformedAppend(a[1..], b);
    }
  }

  lemma {:induction false} ObservedAppend(a: seq<Event>, b: seq<Event>)
    ensures Observed(a + b) == Observed(a) + Observed(b)
  {
    if |a| == 0 {
      assert a + b == b;
    } else {
      assert (a + b)[1..] == a[1..] + b;
      ObservedAppend(a[1..], b);
    }
  }

  /** A single log record is observed exactly when its message is a marker. */
  lemma LogObserved(level: Level, m: Message)
    ensures IsMarker(m) ==> Observed([Log(level, m)]) == [Mark(m)]
    ensures !IsMarker(m) ==> Observed([Log(level, m)]) == []
  {
    assert [Log(level, m)][1..] == [];
  }

  /** Without markers, what a trace shows is its invocations, in order. */
  lemma {:induction false} Unmarked(events: seq<Event>)
    requires Markers(events) == []
    ensures Observed(events) == Performed(Invocations(events))
  {
    if |events| > 0 {
      var rest := events[1..];
      assert Markers(rest) == [];
      Unmarked(rest);
      match events[0]
      case Invoke(c, sh, _) =>
        var calls := [Call(c, sh)] + Invocations(rest);
        assert calls[0] == Call(c, sh) && calls[1..] == Invocations(rest);
      case Log(_, m) =>
        assert !IsMarker(m);
        assert Observed(events) == Observed(rest);
        assert Invocations(events) == Invocations(rest);
    }
  }

  /**
   * The joint view keeps both projections: its markers are the trace's
   * markers and its invocations are the trace's invocations.
   */
  function MarksOf(obs: seq<Obs>): seq<Message> {
    if |obs| == 0 then [] else (if obs[0].Mark? then [obs[0].msg] else []) + MarksOf(obs[1..])
  }

  function CallsOf(obs: seq<Obs>): seq<Call> {
    if |obs| == 0 then [] else (if obs[0].Made? then [obs[0].call] else []) + CallsOf(obs[1..])
  }

  lemma {:induction false} ObservedProjections(events: seq<Event>)
    ensures MarksOf(Observed(events)) == Markers(events)
    ensures CallsOf(Observed(events)) == Invocations(events)
  {
    if |events| > 0 {
      ObservedProjections(events[1..]);
      var head := Observed(events[..1]);
      assert events[..1] + events[1..] == events;
      ObservedAppend(events[..1], events[1..]);
      assert events[..1][1..] == [];
      MarksAppend(head, Observed(events[1..]));
      CallsAppend(head, Observed(events[1..]));
    }
  }

  lemma {:induction false} MarksAppend(a: seq<Obs>, b: seq<Obs>)
    ensures MarksOf(a + b) == MarksOf(a) + MarksOf(b)
  {
    if |a| == 0 {
      assert a + b == b;
    } else {
      assert (a + b)[0] == a[0] && (a + b)[1..] == a[1..] + b;
      MarksAppend(a[1..], b);
    }
  }

  lemma {:induction false} CallsAppend(a: seq<Obs>, b: seq<Obs>)
    ensures CallsOf(a + b) == CallsOf(a) + CallsOf(b)
  {
    if |a| == 0 {
      assert a + b == b;
    } else {
      assert (a + b)[0] == a[0] && (a + b)[1..] == a[1..] + b;
      CallsAppend(a[1..], b);
    }
  }

  /**
   * The markers of n completed jobs: "Executing backup #i" then
   * "Done executing backup #i" for i = 1..n, each job closed before the
   * next one opens.
   */
  function Brackets(n: nat): (ms: seq<Message>)
    ensures |ms| == 2 * n
  {
    if n == 0 then [] else Brackets(n - 1) + [BackupStart(n), BackupEnd(n)]
  }

  /** Position 2j holds the opening of job j + 1 and position 2j + 1 its closing. */
  lemma {:induction false} BracketsOrder(n: nat)
    ensures forall j :: 0 <= j < n ==>
              Brackets(n)[2 * j] == BackupStart(j + 1) && Brackets(n)[2 * j + 1] == BackupEnd(j + 1)
  {
    if n > 0 {
      BracketsOrder(n - 1);
      var ms := Brackets(n);
      assert forall j :: 0 <= j < n - 1 ==> ms[2 * j] == Brackets(n - 1)[2 * j] && ms[2 * j + 1] == Brackets(n - 1)[2 * j + 1];
    }
  }
}

=== FILE: wrappers.dfy ===
/** Optional values and results shared by the model. */
module Wrappers {

  /** A value that may be absent. */
  datatype Option<+T> = None | Some(value: T) {

    /** The wrapped value, or `default` when there is none. */
    function GetOr(default: T): T {
      match this
      case Some(v) => v
      case None => default
    }
  }

  /** The outcome of an operation that can raise. */
  datatype Result<+R, +E> = Success(value: R) | Failure(error: E)
}
